=== FILE: README.md ===
# Braitenberg vehicle laboratory — a Dafny model

This project models the logic of a small React application in which a user
drives Braitenberg vehicles toward or away from a light. The application also
keeps a log of runs, shows statistics about them and holds a few preferences.
The model leaves out rendering, the browser and the frame scheduler. It keeps
what the pages compute:

- **The live simulation** (`engine.dfy`, module `Engine`). One animation frame:
  - reads two light sensors (an inverse-square intensity, floored at distance 1);
  - drives the two wheels through the chosen vehicle's wiring. Fear is
    same-side excitatory, Aggression crossed excitatory, Love crossed
    inhibitory and Explorer same-side inhibitory;
  - turns and moves the robot by differential-drive kinematics;
  - wraps it around the 100 × 100 arena;
  - accumulates distance and elapsed time.

  The module also covers the pause, reset and light-placement controls, the
  `mm:ss` clock, the average-speed read-outs, the run summary saved to the log
  and the "save parameters" button.
- **The text codec** (`codec.dfy`, module `Codec`). The `"<m>m <s>s"` duration
  written by the live view and the duration and distance parsers of the
  statistics page. This includes the leftmost-match semantics of the pattern
  `(\d+)m\s*(\d*)s?` and the `parseFloat(… .replace(/[^\d.]/g, '')) || 0`
  distance reader.
- **The statistics page** (`analysis.dfy`, module `Analysis`): total distance,
  per-vehicle counts, the most used vehicle with its tie rule, the completion
  gauge, and the layout of the chart points.
- **The run log** (`history.dfy`, module `History`): case-insensitive search,
  deleting a saved run after confirmation, the CSV export and the decorative
  sensor trace.
- **The smaller pages**, one module each:
  - the set-up form (`newsimulation.dfy`);
  - the preferences page (`settings.dfy`);
  - the application shell with its seeding, login/onboarding gate and routes
    (`app.dfy`);
  - the three-slide introduction (`onboarding.dfy`);
  - the tab bar (`bottomnav.dfy`).
- **Shared pieces**:
  - the records of `types.ts` (`types.dfy`);
  - the constant data of `constants.ts` (`catalog.dfy`), and facts about it
    (`catalogfacts.dfy`);
  - `localStorage` (`storage.dfy`). It is a map of plain string entries plus
    two typed slots for the JSON entries, each holding either the stored
    document or text that `JSON.parse` rejects;
  - JavaScript string and number helpers (`text.dfy`);
  - list helpers (`lists.dfy`);
  - real-number order facts (`reals.dfy`);
  - `Option` (`wrappers.dfy`).

Numbers are Dafny `real` and `int`. Trigonometry stays abstract: a `Direction`
maps an angle to a unit vector, standing for `(Math.cos a, Math.sin a)`. Square
roots are avoided exactly. `1000 / max(1, sqrt d²)²` equals
`1000 / max(1, d²)`. A step of `v · (cos a, sin a) · m` has length `|v · m|`,
and a lemma shows this squares to the displacement's squared norm.

Behaviour of the code that the model reproduces on purpose:

- **First frame.** The frame guard compares the timestamp reference with
  `undefined`, but the reference starts as `null`. So the first frame runs, and
  its time delta is the raw animation timestamp.
- **Motion is per frame.** The scaled time delta is computed but unused: motion
  is per frame, scaled only by the speed multiplier, and the clock alone uses
  the delta.
- **Unread launch speed.** The "power" the set-up form passes to the live view
  is never read; the speed multiplier always starts at 1.
- **Seeding and the recent history.** Seeding stores the fifteen built-in runs,
  and the log and statistics pages append the first three of them again. After
  seeding, those three are listed twice
  (`App.SeededLogRepeatsRecentHistory`).
- **Date sort.** The statistics page sorts runs by date. The model takes the
  sorted list as any permutation of the runs. It proves that the count, total
  distance, completion rate and the leading count do not depend on the order.
  Only a tie can change which vehicle is named most used.

## Model

| member | source | states |
|---|---|---|
| Engine.Start | pages/SimulationLive.tsx:10-27 | Without router state the run is Love, gain 2.5, name "Exp. Amor". A zero gain falls back to 2.5 and an empty name to "Exp. " plus the behaviour name. Every run starts at (50, 70) facing −π/2 with the light at (50, 30), no distance, no elapsed time, playing at speed 1, with no timestamp yet. |
| Engine.Falloff | pages/SimulationLive.tsx:80-83 | A sensor's intensity is positive and at most 1000. It reaches 1000 exactly when the light is within distance 1. |
| Engine.FalloffAntitone | pages/SimulationLive.tsx:80-83 | A nearer light never gives a lower intensity. |
| Engine.Reading | pages/SimulationLive.tsx:84 | The displayed reading never exceeds 100. It is positive for any positive intensity, and is ten times the intensity below the cap. |
| Engine.TransferBounds | pages/SimulationLive.tsx:86-93 | An inhibitory wheel never drops below 0.1. For non-negative gain and intensity, an excitatory wheel turns at least at 0.5 and an inhibitory one at most at 2. |
| Engine.TransferMonotone | pages/SimulationLive.tsx:86-93 | More light on the wired sensor never slows an excitatory wheel (strictly speeds it for a positive gain) and never speeds an inhibitory one. |
| Engine.DriveWheels | pages/SimulationLive.tsx:86-94 | For Aggression and Love each wheel answers the opposite sensor; for Fear and Explorer it answers the same-side one. Equal intensities give equal wheel speeds for every vehicle. |
| Engine.Velocities | pages/SimulationLive.tsx:96 | The robot turns exactly when the wheels differ, its heading growing exactly when the right wheel is faster, and its forward speed lies between the two wheel speeds. |
| Engine.TurnTowardSlower | pages/SimulationLive.tsx:96-98 | Scaled by a positive speed, the new heading is larger exactly when the right wheel is faster and smaller exactly when the left one is. |
| Engine.StepPose | pages/SimulationLive.tsx:97-107 | The new heading is the old one plus the scaled turn rate. The position moves by the scaled displacement along the new heading, each coordinate wrapped, and the reported step is that displacement's Euclidean length. |
| Engine.StepLength | pages/SimulationLive.tsx:105 | The distance added per frame is non-negative, and zero exactly when the scaled forward speed is zero. |
| Engine.StepLengthIsNorm | pages/SimulationLive.tsx:99-105 | The distance added per frame is the Euclidean length of the frame's displacement. |
| Engine.Wrap | pages/SimulationLive.tsx:106 | A coordinate always ends in [0, 100]. One already inside is unchanged; one past an edge reappears on the opposite edge. |
| Engine.MoveFrom | pages/SimulationLive.tsx:86-107 | Given the two sensed intensities: the readings are their capped values, the heading advances by the turn rate of the wired wheels times the speed multiplier (toward the slower wheel, not at all under equal light), and the robot steps along the new heading with wrapped coordinates, adding the displacement's Euclidean length. |
| Engine.Move | pages/SimulationLive.tsx:75-107 | After a frame the robot is inside the arena and both readings are in (0, 100]; they are the capped intensities of the two sensors. The new heading is the old one plus the turn rate (right wheel minus left wheel, over the wheelbase 5) times the speed multiplier. At a positive speed that heading grows exactly when the right wheel is faster and shrinks exactly when the left one is, so the robot turns toward its slower wheel; equally lit sensors leave the heading unchanged. The robot then steps along the new heading, each coordinate wrapped, and the distance added is the Euclidean length of that displacement. |
| Engine.Tick | pages/SimulationLive.tsx:69-111 | Every frame records its timestamp and leaves the vehicle, name, light, gain, speed and play state alone. A paused frame changes nothing else. A running frame takes the pose and readings of that frame's move and adds the move's step to the distance, so the distance never decreases and the robot stays in the arena with readings in (0, 100]. The clock advances by the timestamp delta times the speed, so it does not go back for a forward delta at a non-negative speed. |
| Engine.ClockAfter | pages/SimulationLive.tsx:73 | The clock advances by exactly the delta times the speed. With a forward delta and a non-negative speed it does not go back; at speed 1 it advances by exactly the delta. |
| Engine.ClockAfterAdds | pages/SimulationLive.tsx:73 | Advancing the clock by two deltas in turn is the same as advancing it once by their sum. |
| Engine.Advance | pages/SimulationLive.tsx:73-109 | Applying a frame's move takes its pose and readings, records the timestamp, adds the step to the distance (so it never decreases) and advances the clock by the scaled delta, which does not decrease it for a forward delta at a non-negative speed. |
| Engine.FirstFrameUsesRawTimestamp | pages/SimulationLive.tsx:70-73 | The first frame of a playing run is not skipped: the clock advances by the raw timestamp scaled by the speed. |
| Engine.MotionIgnoresClock | pages/SimulationLive.tsx:72-106 | Where the robot ends up and how far it went after a frame do not depend on when the frame runs. |
| Engine.BalancedSensorsKeepHeading | pages/SimulationLive.tsx:86-98 | With both sensors equally lit, every vehicle keeps its heading. |
| Engine.PausedRunFreezes | pages/SimulationLive.tsx:69-111 | Any number of frames while paused changes nothing but the last recorded timestamp. |
| Engine.RunningRunMonotone | pages/SimulationLive.tsx:69-111 | Over any run of frames with ordered timestamps and a non-negative speed, distance and elapsed time never decrease and the settings stay as they were. |
| Engine.Origin | pages/SimulationLive.tsx:70-71 | Every frame's delta is its timestamp minus the last recorded one, or minus 0 before the first frame. |
| Engine.RunClockTelescopes | pages/SimulationLive.tsx:69-116 | While running, after any sequence of frames the clock has advanced by the last timestamp minus the starting origin, times the speed: the per-frame deltas add up. |
| Engine.TogglePlay | pages/SimulationLive.tsx:189 | The play button flips the play state and nothing else. |
| Engine.Reset | pages/SimulationLive.tsx:188 | Reset puts the robot back at (50, 70) facing −π/2 with zero distance and time. The light, gain, speed, play state, readings and timestamp are kept. |
| Engine.ResetIdempotent | pages/SimulationLive.tsx:188 | Pressing reset twice is the same as pressing it once. |
| Engine.PlaceLight | pages/SimulationLive.tsx:137 | The light moves to the click's offset from the arena's top-left corner, as a percentage of the arena's width and height. A click inside the arena keeps the light inside it. Nothing else changes. |
| Engine.Clock | pages/SimulationLive.tsx:118-120 | The `TEMPO` clock is at least five characters long. For a non-negative elapsed time it is the whole minutes, a colon and two digits; the minutes read back as the whole seconds divided by 60 and the two digits as the seconds modulo 60. |
| Engine.ClockReadsBack | pages/SimulationLive.tsx:118-120 | Below 100 minutes the clock is five characters, `mm:ss`, whose fields read back as the whole minutes and the seconds below 60. |
| Engine.AverageSpeed | pages/SimulationLive.tsx:61 | The saved average speed times the whole seconds is the distance; with zero seconds the distance is divided by one. |
| Engine.LiveAverageSpeed | pages/SimulationLive.tsx:153 | The live read-out times the unrounded seconds is the distance; at time zero it shows the distance itself. |
| Engine.SaveSimulation | pages/SimulationLive.tsx:51-63 | The saved record has a `user_sim_` id, the run's name and vehicle, status completed and the last readings. Its duration text reads back, through the statistics parser, as the whole seconds elapsed. |
| Engine.StoreRun | pages/SimulationLive.tsx:64-65 | The new record is put in front of the stored runs. Unparsable stored text aborts without writing. Other entries are untouched. |
| Engine.SavePreferences | pages/SimulationLive.tsx:37-44 | The stored preferences become the run's gain, speed multiplier and vehicle; other entries are untouched. |
| NewSimulation.InitialVehicle | pages/NewSimulation.tsx:11-20 | The form starts on the saved vehicle, or on Love when nothing parsable is saved. |
| NewSimulation.InitialGain | pages/NewSimulation.tsx:22-31 | The form's gain is never zero: a saved non-zero gain is used, otherwise 2.5. |
| NewSimulation.DefaultName | pages/NewSimulation.tsx:37-40 | The proposed name is "Exp. " followed by the behaviour name after the colon of the vehicle's label. |
| NewSimulation.DefaultNameInjective | pages/NewSimulation.tsx:37-40 | Different vehicles propose different names. |
| NewSimulation.Open | pages/NewSimulation.tsx:11-40 | On arrival the form shows the saved defaults, power 80, and the chosen vehicle's proposed name. |
| NewSimulation.SelectVehicle | pages/NewSimulation.tsx:37-40 | Picking another vehicle replaces the typed name with that vehicle's proposed name. Picking the selected one changes nothing. Gain and power are kept. |
| NewSimulation.TypeName | pages/NewSimulation.tsx:104 | Typing sets the name and nothing else. |
| NewSimulation.Reset | pages/NewSimulation.tsx:49-54 | Reset yields Love, gain 2.5, power 80 and Love's proposed name. |
| NewSimulation.ResetAgreesWithNameEffect | pages/NewSimulation.tsx:49-54 | After a reset the name effect has nothing left to change. The reset form is exactly the form opened on empty storage. |
| NewSimulation.StartSimulation | pages/NewSimulation.tsx:56-65 | The launch carries the form's vehicle, gain and power, and the typed name or "Nova Simulação" when it is empty. |
| NewSimulation.LaunchReachesLiveView | pages/SimulationLive.tsx:10-14 | The live view runs the vehicle and name the form launched, and its gain unless that gain is zero. |
| NewSimulation.PreferencesReadBack | pages/NewSimulation.tsx:11-31 | Parameters saved in the live view come back as the next form's vehicle and (non-zero) gain. |
| NewSimulation.Position | pages/NewSimulation.tsx:117 | The "n de 4" indicator is between 1 and 4 and names the position of the selected vehicle in the enum. |
| NewSimulation.PositionInjective | pages/NewSimulation.tsx:117 | Different vehicles show different positions. |
| Codec.FormatDuration | pages/SimulationLive.tsx:52-53 | A non-negative number of seconds is written as the decimal minutes, "m ", the decimal remaining seconds and "s". |
| Codec.SecondsFieldBelowSixty | pages/SimulationLive.tsx:53 | The written seconds field is below 60, and minutes times 60 plus it gives back the duration. |
| Codec.MatchIffMarker | pages/Analysis.tsx:104 | The duration pattern matches somewhere exactly when some run of digits is directly followed by "m". |
| Codec.FirstMatch | pages/Analysis.tsx:104 | The match used is the leftmost one; no earlier position matches. |
| Codec.ParseDurationSeconds | pages/Analysis.tsx:103-109 | A text in which the pattern never matches reads as 0 seconds. |
| Codec.ParseDurationShape | pages/Analysis.tsx:103-109 | Minutes digits, "m", optional white space and seconds digits read as minutes × 60 + seconds. Empty seconds count as 0. |
| Codec.DurationRoundTrip | pages/Analysis.tsx:103-109 | For every non-negative duration, the statistics parser reads back the duration text written by the live view as that duration. |
| Codec.Fraction | pages/Analysis.tsx:101 | The digits after a decimal point read as a non-negative fraction; with no digits it is 0. |
| Codec.ParseDecimal | pages/Analysis.tsx:101 | The decimal read from digits and dots is never negative. Without a leading digit or a ".digit" it is 0. |
| Codec.ParseDistance | pages/Analysis.tsx:101 | A distance text never reads as negative (a minus sign is dropped with the other non-numeric characters). A text without digits reads as 0. |
| Codec.ParseDistanceShape | pages/Analysis.tsx:101 | The text "a.b m" reads back as the decimal number a.b. |
| Codec.ParseWholeDistanceShape | pages/Analysis.tsx:101 | The text "a m" reads back as the whole number a. |
| Analysis.TotalDistance | pages/Analysis.tsx:119 | The distance card is never negative. |
| Analysis.TotalDistanceAppend | pages/Analysis.tsx:119 | The total over saved runs followed by built-in runs is the sum of the two totals. |
| Analysis.Count | pages/Analysis.tsx:120-123 | A vehicle is counted at most once per run. |
| Analysis.CountAppend | pages/Analysis.tsx:120-123 | Counting over two lists adds their counts. |
| Analysis.CountsCoverAll | pages/Analysis.tsx:120-123 | Every run is tallied under exactly one vehicle: the four counts add up to the number of runs. |
| Analysis.CountPositive | pages/Analysis.tsx:120-123 | A vehicle has a positive count exactly when some run uses it. |
| Analysis.FirstRun | pages/Analysis.tsx:120-123 | The index returned holds the vehicle's first run: no earlier run uses it, and it is the list length when no run does. |
| Analysis.FirstRunOccurs | pages/Analysis.tsx:120-123 | A vehicle has a first run inside the list exactly when some run uses it. |
| Analysis.FirstRunAppend | pages/Analysis.tsx:120-123 | One more run keeps an existing first run, makes itself the first run of a vehicle not yet seen, and otherwise leaves the vehicle unseen. |
| Analysis.FirstSeen | pages/Analysis.tsx:120-125 | The tally's keys are distinct and are exactly the vehicles that occur. They come in order of first occurrence: an earlier key's first run comes strictly before a later key's. |
| Analysis.FirstSeenPrecedes | pages/Analysis.tsx:120-125 | Wherever a later key occurs, every earlier key has already occurred. |
| Analysis.Counts | pages/Analysis.tsx:125 | The entries carry, key by key, the number of runs of that vehicle. |
| Analysis.UnseenCountZero | pages/Analysis.tsx:120-123 | A vehicle absent from the tally has count zero. |
| Analysis.LeaderFacts | pages/Analysis.tsx:125 | The first maximal tally entry is used by some run, is counted at least as often as every vehicle, and strictly more often than every key before it. |
| Analysis.TiedKeyAfter | pages/Analysis.tsx:120-125 | One given vehicle tied with the first maximal tally entry first occurs after that entry does. |
| Analysis.TieGoesToFirst | pages/Analysis.tsx:120-125 | A vehicle with as many runs as the first maximal tally entry, but a different one, has its first run strictly after that entry's first run. |
| Analysis.MostUsedType | pages/Analysis.tsx:120-125 | With no runs there is no leader. Otherwise the leader occurs, no vehicle occurs more often, and it beats every key before it. On a tie, the vehicle that appeared first wins, because the sort is stable: a tied vehicle's first run comes after the leader's. |
| Analysis.MostUsed | pages/Analysis.tsx:125-126 | The card shows "N/A" exactly when there are no runs, and otherwise the behaviour name of the leader. |
| Analysis.CompletionRate | pages/Analysis.tsx:132 | The gauge is in [0, 100]: two points per run, full from 50 runs on. |
| Analysis.Summary | pages/Analysis.tsx:128-133 | The four cards show the number of runs, the total distance, the most used vehicle and the gauge. |
| Analysis.SummaryIgnoresOrder | pages/Analysis.tsx:113-133 | Sorting the runs changes neither the count, the total distance, the gauge nor the leader's count. |
| Analysis.DistanceSeries | pages/Analysis.tsx:136 | The distance chart has one value per run, in list order, each the run's parsed distance. |
| Analysis.DurationSeries | pages/Analysis.tsx:137 | The duration chart has one value per run, in list order, each the run's parsed seconds. |
| Analysis.DistanceSeriesSumsToTotal | pages/Analysis.tsx:119-136 | The distance chart plots exactly the amounts the distance card adds up. |
| Analysis.ChartMax | pages/Analysis.tsx:14 | The chart scale is at least 1, bounds every value, and is either 1 or one of the values. |
| Analysis.Span | pages/Analysis.tsx:22 | The horizontal divisor is the last index, or 1 for a single point. |
| Analysis.ChartPoints | pages/Analysis.tsx:19-25 | There is one point per value, and none for an empty series. |
| Analysis.ChartXLayout | pages/Analysis.tsx:22 | Points run strictly left to right within the padded width [20, 380]. |
| Analysis.ChartYLayout | pages/Analysis.tsx:23 | For non-negative data every point lies within the padded height [20, 80]. A larger value is drawn higher. |
| History.FilteredSims | pages/History.tsx:77-80 | The cards shown are exactly the runs whose lower-cased name or vehicle label contains the lower-cased query, each as often as it is listed. |
| History.EmptyQueryShowsAll | pages/History.tsx:77-80 | An empty search box shows every run, in order. |
| History.FilterKeepsOrder | pages/History.tsx:77-80 | Searching keeps list order: saved matches come before built-in matches. |
| History.LowerOfCode | pages/History.tsx:79 | A vehicle label lower-cases to a text starting with its code, which lower-casing leaves alone. |
| History.CodeQueryFindsVehicle | pages/History.tsx:79 | Searching for a vehicle's code (for instance "3a") finds every run of that vehicle. |
| History.CanDelete | pages/History.tsx:114 | The delete button shows for runs whose id does not start with `db_`. So the runs the live view saves, with `user_sim_` ids, have one, and the `db_` entries do not. |
| History.Without | pages/History.tsx:71 | Removing an id leaves no run with that id and keeps every other run as often as before. |
| History.WithoutKeepsOrder | pages/History.tsx:71 | Deleting from a concatenation deletes from each part, so the surviving runs keep their order. |
| History.WithoutOne | pages/History.tsx:71 | A single run survives deletion exactly when its id differs from the deleted one. |
| History.RequestDelete | pages/History.tsx:114 | The delete button opens the confirmation for that run and changes no list. |
| History.CancelDelete | pages/History.tsx:142 | Cancelling closes the confirmation and deletes nothing. |
| History.PerformDelete | pages/History.tsx:68-75 | With no pending id (or an empty one) nothing happens. Unparsable stored text aborts. Otherwise the run is gone from storage and from the page, the confirmation closes, and other entries are untouched. |
| History.RecentHistoryIds | constants.ts:4-33 | The built-in recent runs carry `db_` ids. |
| History.DeleteKeepsBuiltIns | pages/History.tsx:68-75 | Deleting a run that offers a delete button leaves the built-in entries of the page in place. |
| History.Export | pages/History.tsx:57-64 | The download is named `telemetria_<id>.csv`: the prefix, then exactly the run's id, then `.csv`. Its content starts with the header line. |
| History.LabelCsvSafe | types.ts:9-14 | No vehicle label holds a comma or a line break. |
| History.RowIsOneLine | pages/History.tsx:59 | The data row is a single line when no field holds a line break. |
| History.HeaderFields | pages/History.tsx:59 | The header names the five columns id, name, type, distance, duration. |
| History.RowFields | pages/History.tsx:59 | When no field holds a comma, the row splits back into id, name, label, distance and duration. |
| History.ExportReadsBack | pages/History.tsx:59 | When no field needs quoting, the file reads back as two lines: the five column names, then the run's five fields in the same order. |
| History.Clamp | pages/History.tsx:24 | A trace sample lies in [10, 90], and a value already there is kept. |
| History.Trace | pages/History.tsx:19-25 | A trace has 24 samples, each the clamped sum of the stored reading and that sample's variation. |
| History.TraceInsideBox | pages/History.tsx:30-32 | Every drawn trace sample lies inside the 240 × 48 box, at least 4.8 from its top and bottom edges. |
| Settings.KeyInjective | pages/Settings.tsx:24-34 | The three toggles are stored under distinct keys. |
| Settings.Read | pages/Settings.tsx:13-21 | A toggle is on unless its entry is exactly "false"; a missing entry reads as on. |
| Settings.Write | pages/Settings.tsx:24-34 | Syncing a toggle stores "true" or "false" under its key and leaves the other toggles' entries alone. |
| Settings.WriteReadsBack | pages/Settings.tsx:13-34 | What a toggle writes is what it reads back, and the other toggles read as before. |
| Settings.Open | pages/Settings.tsx:13-34 | On opening, the switches show what storage says, and the sync effects keep storage in agreement. |
| Settings.Click | pages/Settings.tsx:67 | Clicking a row flips that switch only, and storage stays in agreement with the switches. |
| Settings.ClickTwiceRestores | pages/Settings.tsx:67 | Two clicks on the same row restore the switch and what it reads from storage. |
| Settings.ToggleDarkMode | pages/Settings.tsx:44-52 | The dark choice stores "dark", the light one "light"; no other storage entry changes, and the stored runs and preferences stay as they were. |
| Settings.ClearedTogglesOn | pages/Settings.tsx:164-168 | After clearing all data every toggle reads, and opens, as on. |
| App.Seed | App.tsx:24-31 | A missing, empty-text or empty-list run entry is replaced by the fifteen built-in runs. Any other list is left alone. Unparsable text aborts. Flags and preferences are untouched. |
| App.SeedIdempotent | App.tsx:24-31 | Seeding twice is seeding once. |
| App.SeededLogRepeatsRecentHistory | App.tsx:24-31 | After seeding, the log and the statistics list 18 runs, the first three appearing twice. |
| App.Mount | App.tsx:16-31 | The shell reads both flags from storage (mirroring them exactly) and then seeds. It aborts only where seeding does. |
| App.Login | App.tsx:33-36 | After login the stored flag reads "true" and the shell says logged in. |
| App.Logout | App.tsx:38-41 | After logout the flag is absent and the shell says logged out. |
| App.CompleteOnboarding | App.tsx:43-46 | Completing the introduction stores its flag and hides it, keeping the login state. |
| App.Gate | App.tsx:48-54 | The introduction shows whenever it is unseen, whatever the login state. The login screen shows exactly when it was seen and the user is logged out. The routed pages show otherwise. |
| App.Apply | App.tsx:33-46 | Every handler keeps the shell in agreement with storage and never brings the introduction back. |
| App.ApplyAll | App.tsx:33-46 | Any sequence of handler calls keeps the shell in agreement with storage. |
| App.OnboardingNeverReturns | App.tsx:43-54 | Once the introduction is done, no sequence of logins and logouts shows it again. |
| App.AuthOnlyAfterOnboarding | App.tsx:48-54 | The login screen appears only when the introduction flag is stored and the login flag is not "true". |
| App.Route | App.tsx:59-66 | A `/live/<id>` path opens the live view for that id. Unknown paths show the dashboard at "/", and every other page keeps its path. |
| App.CatchAllRedirects | App.tsx:66 | Every unmatched path ends on the dashboard at "/"; every matched one stays where it is. |
| App.CardLinkReachesLiveView | App.tsx:62 | A log card's link reaches the live view with the card's id, when the id holds no slash. |
| Onboarding.Next | pages/Onboarding.tsx:29-32 | "Próximo" moves to the next slide until the last one, where it completes without changing the slide. |
| Onboarding.Skip | pages/Onboarding.tsx:44 | "Pular" completes from any slide. |
| Onboarding.Presses | pages/Onboarding.tsx:29-32 | Fewer than three presses from the start leave the introduction open on slide n. |
| Onboarding.CompletesOnThirdPress | pages/Onboarding.tsx:29-32 | The introduction completes on the third press and not before, and stays on the last slide. |
| Onboarding.Dots | pages/Onboarding.tsx:64-66 | There are three dots, and exactly the current one is highlighted. |
| Onboarding.ButtonLabel | pages/Onboarding.tsx:69 | The button reads "Iniciar Jornada" exactly on the last slide, and "Próximo" on the others. |
| BottomNav.HiddenFrom | components/BottomNav.tsx:11 | Scanning the hidden prefixes from a position finds one exactly when the path starts with one of the remaining prefixes. |
| BottomNav.Hidden | components/BottomNav.tsx:10-11 | The bar is hidden exactly when the path starts with "/live", "/onboarding", "/auth" or "/new". |
| BottomNav.HiddenUnderPrefix | components/BottomNav.tsx:11 | The rule is a prefix test: every path under "/live" or "/new" hides the bar. |
| BottomNav.TabsShowBar | components/BottomNav.tsx:26-32 | The four tab pages all show the bar. |
| BottomNav.AtMostOneActive | components/BottomNav.tsx:14 | At most one tab is active on any path. |
| BottomNav.HomeNotActiveElsewhere | components/BottomNav.tsx:14 | The home tab is not active on another tab's page, since activity is exact equality. |
| Types.LabelSplits | types.ts:9-14 | Splitting a vehicle label at ": " gives its code and its behaviour name. |
| Types.LabelInjective | types.ts:9-14 | Different vehicles have different labels. |
| Types.AfterColon | pages/NewSimulation.tsx:38 | The part after ": " of a label is the behaviour name. |
| Catalog.RecentHistory | constants.ts:157 | The recent history is exactly the first three built-in runs. |
| CatalogFacts.SavedRunsDeletable | pages/SimulationLive.tsx:55 | Every run the live view saves gets a delete button in the history, and deleting another id leaves it in place. |
| CatalogFacts.SeedRunsProtected | constants.ts:4-155 | The fifteen built-in runs have pairwise distinct ids, none of which offers a delete button. |
| CatalogFacts.SeedDurationsParse | constants.ts:4-155 | Every built-in duration, including the zero-padded ones, reads as its minutes × 60 plus its seconds. |
| CatalogFacts.RecentHistoryDistances | constants.ts:13-33 | The distance chart reads 841.5, 201.6 and 998.4 for the three recent runs. |
| CatalogFacts.RecentHistoryDistance | constants.ts:13-33 | The three recent runs add 2041.5 to the distance card. |
| CatalogFacts.ConnectionsDescribeWiring | constants.ts:159-184 | A vehicle's card says "Cruzadas" exactly when the live view crosses its wiring, and "(Excit.)" exactly when light speeds its wheels up. |
| Storage.SetFlag | App.tsx:34 | Writing an entry makes it read back as written and leaves every other entry alone. |
| Storage.RemoveFlag | App.tsx:39 | Removing an entry makes it absent and leaves every other entry alone. |
| Storage.LoadUserSims | pages/History.tsx:53 | A missing or empty entry reads as no runs. A stored list reads as itself. Only unparsable text fails. |
| Storage.SaveUserSims | pages/History.tsx:72 | What is stored is what reads back, and the other entries are untouched. |
| Storage.AllRuns | pages/History.tsx:53-54 | The log lists the saved runs, then the recent history; it fails only on unparsable stored text. |
| Text.NatToString | pages/SimulationLive.tsx:53 | A number's decimal text is non-empty, all digits, and reads back as that number. |
| Text.JsRem | pages/SimulationLive.tsx:53 | The remainder operator truncates toward zero: it takes the sign of the dividend and agrees with the mathematical remainder on non-negative operands. |
| Text.Lower | pages/History.tsx:78-79 | Lower-casing keeps the length and maps each character on its own. |
| Text.Split | pages/NewSimulation.tsx:38 | Splitting always yields at least one part. |
| Text.SplitAt | pages/NewSimulation.tsx:38 | A text with a separator after a separator-free head splits into that head followed by the split of the rest. |
| Text.PadTwo | pages/SimulationLive.tsx:120 | Padding yields at least two characters: zeros followed by the original text. |
| Text.PadTwoReadsBack | pages/SimulationLive.tsx:120 | Any number, rendered and padded to at least two characters, reads back as the number. |
| Text.PadTwoOfSmall | pages/SimulationLive.tsx:120 | Any number below 100 pads to two digits that read back as the number. |
| Lists.FirstMax | pages/Analysis.tsx:125 | The chosen index holds a maximum, and every earlier entry is strictly smaller. |
| Lists.IndexOf | pages/NewSimulation.tsx:117 | The result is −1 exactly when the element is absent, and otherwise the first position holding it. |
| Lists.Keep | pages/History.tsx:77-80 | Filtering keeps every satisfying element as often as it occurs and drops the rest. |
| Lists.SumPermutation | pages/Analysis.tsx:113-119 | Reordering a list does not change the sum. |
| Lists.KeepPermutation | pages/Analysis.tsx:113-123 | Reordering a list does not change what a filter keeps, up to order. |

## Left out

- Rendering, CSS, React state scheduling, `requestAnimationFrame` and effect
  re-registration: UI plumbing, not logic. A frame is modelled as one call of
  `Engine.Tick`.
- Trigonometry and square roots: the sensor placement uses an abstract unit
  vector for each angle (`Engine.Direction`). No claim is made about the sensor
  positions beyond their construction.
- IEEE floating point, `toFixed` rounding and `Math.PI`'s exact value: numbers
  are reals. `toFixed(1)` is a parameter of `Engine.SaveSimulation`, so the
  distance and speed texts of a saved run are not tied to a format.
- `Date.now()` and `toLocaleDateString`: they are parameters of
  `Engine.SaveSimulation`.
- The sort by `new Date(timestamp)` on the statistics page: the pt-BR
  timestamps are not dates JavaScript parses reliably. The sorted list is any
  permutation (see `Analysis.SummaryIgnoresOrder`).
- `JSON.parse`/`JSON.stringify` beyond "parses or not": a stored document of
  the wrong shape is not modelled. Examples are a non-array run list, or
  preferences missing a field.
- `Math.random`, `Math.sin` and the char-code seed of the sensor trace:
  replaced by the `wobble` parameter of `History.Trace`. Only the clamp and
  the layout are modelled.
- Unicode case mapping: `toLowerCase` is modelled on ASCII letters only, so
  queries with non-ASCII capitals are outside the model.
- The router's case-insensitive matching, trailing slashes and hash history:
  `App.Route` matches paths exactly.
- The dashboard, the login page, the network call on the dashboard, the Blob
  download, `confirm`, `window.location.reload` and "back" navigation:
  external effects with no logic of their own here.
- The ranges of the speed and gain sliders: gain and speed are unconstrained
  reals, and contracts that need a sign say so.
- The chart's show/hide legend and the "Max" label: display only.
- The `saveSimulation` navigation to the log and the two-second "saved" badge:
  display only.

=== FILE: analysis.dfy ===
/**
  The statistics page of `pages/Analysis.tsx`: totals over every run (saved and
  built-in), the most used vehicle, the completion gauge and the two line charts.

  The page sorts the runs by `new Date(timestamp)` before anything else. Here the
  sorted list is an input: `AllRuns` gives the runs, and any permutation of them
  may be passed on. The lemmas show that the totals do not depend on that order.
 */
module Analysis {
  import opened Wrappers
  import opened Text
  import opened Lists
  import opened Types
  import opened Codec
  import opened Storage
  import opened Catalog
  import opened Reals

  // ---------------------------------------------------------------------------
  // Totals
  // ---------------------------------------------------------------------------

  function DistanceOf(s: Simulation): real {
    ParseDistance(s.metrics.distance)
  }

  /** The "Dist. Total" card: the parsed distances added up. */
  function TotalDistance(sims: seq<Simulation>): (r: real)
    ensures r >= 0.0
  {
    SumNonNegative(sims, DistanceOf);
    Sum(sims, DistanceOf)
  }

  /** The total over two lists is the sum of their totals. */
  lemma TotalDistanceAppend(a: seq<Simulation>, b: seq<Simulation>)
    ensures TotalDistance(a + b) == TotalDistance(a) + TotalDistance(b)
  {
    SumAppend(a, b, DistanceOf);
  }

  /** The filter selecting the runs of vehicle `t`. */
  function Uses(t: VehicleType): Simulation -> bool {
    (s: Simulation) => s.vehicleType == t
  }

  /** How many runs use vehicle `t`: the size of the `t` bucket of the tally. */
  function Count(sims: seq<Simulation>, t: VehicleType): (n: nat)
    ensures n <= |sims|
  {
    |Keep(sims, Uses(t))|
  }

  /** Counting splits over concatenation. */
  lemma {:induction false} CountAppend(a: seq<Simulation>, b: seq<Simulation>, t: VehicleType)
    ensures Count(a + b, t) == Count(a, t) + Count(b, t)
  {
    KeepAppend(a, b, Uses(t));
  }

  /** Every run lands in exactly one bucket, so the four counts add up to the number of runs. */
  lemma {:induction false} CountsCoverAll(sims: seq<Simulation>)
    ensures Count(sims, Fear) + Count(sims, Aggression) + Count(sims, Love) + Count(sims, Explorer) == |sims|
    decreases |sims|
  {
    if |sims| > 0 {
      var n := |sims| - 1;
      assert sims == sims[..n] + [sims[n]];
      CountsCoverAll(sims[..n]);
      CountAppend(sims[..n], [sims[n]], Fear);
      CountAppend(sims[..n], [sims[n]], Aggression);
      CountAppend(sims[..n], [sims[n]], Love);
      CountAppend(sims[..n], [sims[n]], Explorer);
    }
  }

  /** A vehicle is counted at all exactly when some run uses it. */
  lemma {:induction false} CountPositive(sims: seq<Simulation>, t: VehicleType)
    ensures Count(sims, t) > 0 <==> exists i :: 0 <= i < |sims| && sims[i].vehicleType == t
    decreases |sims|
  {
    if |sims| > 0 {
      var x, q := sims[0], sims[1..];
      CountPositive(q, t);
      assert Count(sims, t) == (if x.vehicleType == t then 1 else 0) + Count(q, t);
      if Count(q, t) > 0 {
        var i :| 0 <= i < |q| && q[i].vehicleType == t;
        assert sims[i + 1] == q[i];
      }
      if exists i :: 0 <= i < |sims| && sims[i].vehicleType == t {
        var i :| 0 <= i < |sims| && sims[i].vehicleType == t;
        if i > 0 {
          assert q[i - 1].vehicleType == t;
        }
      }
    }
  }

  // ---------------------------------------------------------------------------
  // Most used vehicle
  // ---------------------------------------------------------------------------

  /** Where vehicle `t` first occurs: the index of its first run, or `|sims|` when it never does. */
  function FirstRun(sims: seq<Simulation>, t: VehicleType): (k: nat)
    ensures k <= |sims|
    ensures k < |sims| ==> sims[k].vehicleType == t
    ensures forall v :: 0 <= v < k ==> sims[v].vehicleType != t
    decreases |sims|
  {
    if |sims| == 0 then 0
    else if sims[0].vehicleType == t then 0
    else
      var k := FirstRun(sims[1..], t);
      assert forall v :: 1 <= v <= k ==> sims[v] == sims[1..][v - 1];
      1 + k
  }

  /** A vehicle has a first run exactly when some run uses it. */
  lemma FirstRunOccurs(sims: seq<Simulation>, t: VehicleType)
    ensures FirstRun(sims, t) < |sims| <==> exists i :: 0 <= i < |sims| && sims[i].vehicleType == t
  {
    if exists i :: 0 <= i < |sims| && sims[i].vehicleType == t {
      var i :| 0 <= i < |sims| && sims[i].vehicleType == t;
      assert FirstRun(sims, t) <= i;
    }
  }

  /** One more run leaves a first occurrence alone, or records the new run as the first. */
  lemma FirstRunAppend(p: seq<Simulation>, x: Simulation, t: VehicleType)
    ensures FirstRun(p + [x], t) ==
              if FirstRun(p, t) < |p| then FirstRun(p, t)
              else if x.vehicleType == t then |p|
              else |p| + 1
  {
    var s := p + [x];
    var k, k' := FirstRun(s, t), FirstRun(p, t);
    assert forall v :: 0 <= v < |p| ==> s[v] == p[v];
    if k' < |p| {
      assert s[k'].vehicleType == t;
      assert k <= k';
    } else {
      assert k >= |p|;
      if x.vehicleType == t {
        assert s[|p|].vehicleType == t;
      } else {
        assert s[|p|].vehicleType != t;
      }
    }
  }

  /** The keys after one more run are ordered by first run when the earlier keys were. */
  lemma FirstSeenStep(p: seq<Simulation>, x: Simulation, keys: seq<VehicleType>, r: seq<VehicleType>)
    requires forall t :: t in keys <==> exists i :: 0 <= i < |p| && p[i].vehicleType == t
    requires forall i, j :: 0 <= i < j < |keys| ==> FirstRun(p, keys[i]) < FirstRun(p, keys[j])
    requires r == if x.vehicleType in keys then keys else keys + [x.vehicleType]
    ensures forall i, j :: 0 <= i < j < |r| ==> FirstRun(p + [x], r[i]) < FirstRun(p + [x], r[j])
  {
    forall i, j | 0 <= i < j < |r|
      ensures FirstRun(p + [x], r[i]) < FirstRun(p + [x], r[j])
    {
      var a, b := r[i], r[j];
      assert a == keys[i] && a in keys;
      FirstRunOccurs(p, a);
      FirstRunOccurs(p, b);
      FirstRunAppend(p, x, a);
      FirstRunAppend(p, x, b);
      if j < |keys| {
        assert b == keys[j];
      } else {
        assert b !in keys;
      }
    }
  }

  /** The tally's keys in insertion order: each vehicle where it first occurs. */
  function FirstSeen(sims: seq<Simulation>): (r: seq<VehicleType>)
    ensures forall i, j :: 0 <= i < j < |r| ==> r[i] != r[j]
    ensures forall t :: t in r <==> exists i :: 0 <= i < |sims| && sims[i].vehicleType == t
    ensures forall i, j :: 0 <= i < j < |r| ==> FirstRun(sims, r[i]) < FirstRun(sims, r[j])
    decreases |sims|
  {
    if |sims| == 0 then []
    else
      var n := |sims| - 1;
      var p := FirstSeen(sims[..n]);
      assert forall i :: 0 <= i < n ==> sims[..n][i] == sims[i];
      assert sims == sims[..n] + [sims[n]];
      var r := if sims[n].vehicleType in p then p else p + [sims[n].vehicleType];
      FirstSeenStep(sims[..n], sims[n], p, r);
      r
  }

  /** Wherever a later key occurs, every earlier key has already occurred. */
  lemma FirstSeenPrecedes(sims: seq<Simulation>)
    ensures var r := FirstSeen(sims);
            forall i, j, w :: 0 <= i < j < |r| && 0 <= w < |sims| && sims[w].vehicleType == r[j] ==>
              exists v :: 0 <= v < w && sims[v].vehicleType == r[i]
  {
    var r := FirstSeen(sims);
    forall i, j, w | 0 <= i < j < |r| && 0 <= w < |sims| && sims[w].vehicleType == r[j]
      ensures exists v :: 0 <= v < w && sims[v].vehicleType == r[i]
    {
      assert r[i] in r;
      FirstRunOccurs(sims, r[i]);
      var v := FirstRun(sims, r[i]);
      assert FirstRun(sims, r[j]) <= w;
      assert sims[v].vehicleType == r[i];
    }
  }

  /** The tally's counts, in the tally's key order. */
  function Counts(order: seq<VehicleType>, sims: seq<Simulation>): (r: seq<int>)
    ensures |r| == |order|
    ensures forall i :: 0 <= i < |order| ==> r[i] == Count(sims, order[i])
  {
    seq(|order|, i requires 0 <= i < |order| => Count(sims, order[i]))
  }

  /** A vehicle that never occurs has count zero. */
  lemma UnseenCountZero(sims: seq<Simulation>)
    ensures forall t :: t !in FirstSeen(sims) ==> Count(sims, t) == 0
  {
    forall t | t !in FirstSeen(sims)
      ensures Count(sims, t) == 0
    {
      CountPositive(sims, t);
    }
  }

  /** The first maximal tally entry beats every vehicle, occurs, and strictly beats every key before it. */
  lemma LeaderFacts(sims: seq<Simulation>, k: nat)
    requires |FirstSeen(sims)| > 0 && k == FirstMax(Counts(FirstSeen(sims), sims))
    ensures forall t :: Count(sims, t) <= Count(sims, FirstSeen(sims)[k])
    ensures Count(sims, FirstSeen(sims)[k]) > 0
    ensures forall i :: 0 <= i < k ==> Count(sims, FirstSeen(sims)[i]) < Count(sims, FirstSeen(sims)[k])
    ensures forall i, j :: 0 <= i < j < |FirstSeen(sims)| && FirstSeen(sims)[j] == FirstSeen(sims)[k] ==>
              Count(sims, FirstSeen(sims)[i]) < Count(sims, FirstSeen(sims)[k])
  {
    var order := FirstSeen(sims);
    var counts := Counts(order, sims);
    var r := order[k];
    forall t
      ensures Count(sims, t) <= Count(sims, r)
    {
      if t in order {
        var i :| 0 <= i < |order| && order[i] == t;
        assert counts[i] <= counts[k];
      } else {
        UnseenCountZero(sims);
      }
    }
    forall i | 0 <= i < k
      ensures Count(sims, order[i]) < Count(sims, r)
    {
      assert counts[i] < counts[k];
    }
    forall i, j | 0 <= i < j < |order| && order[j] == r
      ensures Count(sims, order[i]) < Count(sims, r)
    {
      assert j == k;
    }
    assert r in order;
    var w :| 0 <= w < |sims| && sims[w].vehicleType == r;
    CountPositive(sims, r);
  }

  /** One vehicle tied with the leader: its key comes after the leader's, so its first run does too. */
  lemma TiedKeyAfter(sims: seq<Simulation>, k: nat, t: VehicleType)
    requires |FirstSeen(sims)| > 0 && k == FirstMax(Counts(FirstSeen(sims), sims))
    requires t != FirstSeen(sims)[k] && Count(sims, t) == Count(sims, FirstSeen(sims)[k])
    ensures FirstRun(sims, FirstSeen(sims)[k]) < FirstRun(sims, t)
  {
    var order := FirstSeen(sims);
    var counts := Counts(order, sims);
    assert order[k] in order;
    CountPositive(sims, order[k]);
    CountPositive(sims, t);
    assert t in order;
    var j :| 0 <= j < |order| && order[j] == t;
    assert counts[j] == Count(sims, t) == counts[k];
    assert !(j < k);
    assert j != k;
    assert FirstRun(sims, order[k]) < FirstRun(sims, order[j]);
  }

  /** A vehicle tied with the leader first occurs after the leader does. */
  lemma TieGoesToFirst(sims: seq<Simulation>, k: nat)
    requires |FirstSeen(sims)| > 0 && k == FirstMax(Counts(FirstSeen(sims), sims))
    ensures forall t :: t != FirstSeen(sims)[k] && Count(sims, t) == Count(sims, FirstSeen(sims)[k]) ==>
              FirstRun(sims, FirstSeen(sims)[k]) < FirstRun(sims, t)
  {
    forall t | t != FirstSeen(sims)[k] && Count(sims, t) == Count(sims, FirstSeen(sims)[k])
      ensures FirstRun(sims, FirstSeen(sims)[k]) < FirstRun(sims, t)
    {
      TiedKeyAfter(sims, k, t);
    }
  }

  /**
    The entry that sorting `Object.entries(types)` by descending count puts first:
    the most frequent vehicle, ties going to the one seen first.
   */
  function MostUsedType(sims: seq<Simulation>): (r: Option<VehicleType>)
    ensures r.None? <==> |sims| == 0
    ensures r.Some? ==> forall t :: Count(sims, t) <= Count(sims, r.value)
    ensures r.Some? ==> Count(sims, r.value) > 0
    ensures r.Some? ==> forall i, j :: 0 <= i < j < |FirstSeen(sims)| && FirstSeen(sims)[j] == r.value ==>
                          Count(sims, FirstSeen(sims)[i]) < Count(sims, r.value)
    ensures r.Some? ==> forall t :: t != r.value && Count(sims, t) == Count(sims, r.value) ==>
                          FirstRun(sims, r.value) < FirstRun(sims, t)
  {
    var order := FirstSeen(sims);
    if |order| == 0 then
      assert |sims| > 0 ==> sims[0].vehicleType in order;
      None
    else
      var k := FirstMax(Counts(order, sims));
      LeaderFacts(sims, k);
      TieGoesToFirst(sims, k);
      Some(order[k])
  }

  /** The "Mais Usado" card: the behaviour name after the colon, or "N/A" with no runs. */
  function MostUsed(sims: seq<Simulation>): (r: string)
    ensures |sims| == 0 <==> r == "N/A"
    ensures |sims| > 0 ==> r == Name(MostUsedType(sims).value)
  {
    match MostUsedType(sims)
    case None => "N/A"
    case Some(t) => AfterColon(t)
  }

  /** The completion gauge: two points per run, capped at 100. */
  function CompletionRate(count: nat): (r: real)
    ensures 0.0 <= r <= 100.0
    ensures count >= 50 ==> r == 100.0
    ensures count < 50 ==> r == 2.0 * count as real
  {
    var rate := (count as real / 50.0) * 100.0;
    if rate <= 100.0 then rate else 100.0
  }

  datatype Stats = Stats(totalCount: nat, totalDistance: real, mostUsed: string, completionRate: real)

  /** The four summary cards of the page. */
  function Summary(sims: seq<Simulation>): (r: Stats)
    ensures r.totalCount == |sims|
    ensures r.totalDistance == TotalDistance(sims) && r.mostUsed == MostUsed(sims)
    ensures r.completionRate == CompletionRate(|sims|)
  {
    Stats(|sims|, TotalDistance(sims), MostUsed(sims), CompletionRate(|sims|))
  }

  /**
    Reordering the runs (the date sort) changes neither the count, the total
    distance, the completion rate nor how often the most used vehicle occurs;
    only a tie can change which vehicle is named.
   */
  lemma SummaryIgnoresOrder(a: seq<Simulation>, b: seq<Simulation>)
    requires multiset(a) == multiset(b)
    ensures Summary(a).totalCount == Summary(b).totalCount
    ensures Summary(a).totalDistance == Summary(b).totalDistance
    ensures Summary(a).completionRate == Summary(b).completionRate
    ensures |a| > 0 ==> Count(a, MostUsedType(a).value) == Count(b, MostUsedType(b).value)
  {
    assert |a| == |multiset(a)| == |b|;
    SumPermutation(a, b, DistanceOf);
    forall t
      ensures Count(a, t) == Count(b, t)
    {
      KeepPermutation(a, b, Uses(t));
    }
  }

  // ---------------------------------------------------------------------------
  // Charts
  // ---------------------------------------------------------------------------

  /** The distance chart's series: each run's parsed distance, in list order. */
  function DistanceSeries(sims: seq<Simulation>): (r: seq<real>)
    ensures |r| == |sims|
    ensures forall i :: 0 <= i < |sims| ==> r[i] == ParseDistance(sims[i].metrics.distance)
  {
    seq(|sims|, i requires 0 <= i < |sims| => DistanceOf(sims[i]))
  }

  /** The duration chart's series: each run's duration in seconds, in list order. */
  function DurationSeries(sims: seq<Simulation>): (r: seq<real>)
    ensures |r| == |sims|
    ensures forall i :: 0 <= i < |sims| ==> r[i] == ParseDurationSeconds(sims[i].duration) as real
  {
    seq(|sims|, i requires 0 <= i < |sims| => ParseDurationSeconds(sims[i].duration) as real)
  }

  function Id(x: real): real {
    x
  }

  /** The distance chart plots exactly the amounts the "Dist. Total" card adds up. */
  lemma {:induction false} DistanceSeriesSumsToTotal(sims: seq<Simulation>)
    ensures Sum(DistanceSeries(sims), Id) == TotalDistance(sims)
    decreases |sims|
  {
    if |sims| > 0 {
      var n := |sims| - 1;
      DistanceSeriesSumsToTotal(sims[..n]);
      assert DistanceSeries(sims)[..n] == DistanceSeries(sims[..n]);
    }
  }

  /** `Math.max(...data, 1)`: the largest value, and never below 1. */
  function ChartMax(data: seq<real>): (m: real)
    ensures m >= 1.0
    ensures forall i :: 0 <= i < |data| ==> data[i] <= m
    ensures m == 1.0 || exists i :: 0 <= i < |data| && data[i] == m
    decreases |data|
  {
    if |data| == 0 then 1.0
    else
      var n := |data| - 1;
      var m := ChartMax(data[..n]);
      assert forall i :: 0 <= i < n ==> data[..n][i] == data[i];
      if data[n] > m then data[n] else m
  }

  const ChartWidth: real := 400.0
  const ChartHeight: real := 100.0
  const ChartPadding: real := 20.0

  datatype Point = Point(x: real, y: real)

  /** `data.length - 1 || 1`: the index span, with 1 for a single point. */
  function Span(n: nat): (r: real)
    requires n > 0
    ensures r >= 1.0 && (n > 1 ==> r == (n - 1) as real)
  {
    if n - 1 == 0 then 1.0 else (n - 1) as real
  }

  function ChartX(i: nat, n: nat): real
    requires n > 0
  {
    (i as real / Span(n)) * (ChartWidth - ChartPadding * 2.0) + ChartPadding
  }

  function ChartY(v: real, max: real): real
    requires max > 0.0
  {
    ChartHeight - ((v / max) * (ChartHeight - ChartPadding * 2.0) + ChartPadding)
  }

  /** The polyline's points, one per datum; an empty series draws nothing. */
  function ChartPoints(data: seq<real>): (r: seq<Point>)
    ensures |r| == |data|
  {
    var max := ChartMax(data);
    seq(|data|, i requires 0 <= i < |data| => Point(ChartX(i, |data|), ChartY(data[i], max)))
  }

  /** Points run left to right across the padded width, from 20 to 380. */
  lemma ChartXLayout(data: seq<real>, i: nat, j: nat)
    requires i < j < |data|
    ensures var p := ChartPoints(data);
            ChartPadding <= p[i].x < p[j].x <= ChartWidth - ChartPadding
  {
    var n := |data|;
    var span := Span(n);
    assert (j as real) <= span;
    QuotientUnit(i as real, span);
    QuotientUnit(j as real, span);
    QuotientOrder(i as real, j as real, span);
    var a, b := i as real / span, j as real / span;
    assert a * 360.0 < b * 360.0 <= 360.0;
  }

  /**
    For non-negative data every point lies inside the vertical padding, and a
    larger value is drawn higher (a smaller y).
   */
  lemma ChartYLayout(data: seq<real>, i: nat, j: nat)
    requires i < |data| && j < |data|
    requires forall k :: 0 <= k < |data| ==> data[k] >= 0.0
    ensures var p := ChartPoints(data);
            ChartPadding <= p[i].y <= ChartHeight - ChartPadding
    ensures data[i] < data[j] ==> ChartPoints(data)[i].y > ChartPoints(data)[j].y
  {
    var max := ChartMax(data);
    var a, b := data[i] / max, data[j] / max;
    QuotientUnit(data[i], max);
    if data[i] < data[j] {
      QuotientOrder(data[i], data[j], max);
      assert a * 60.0 < b * 60.0;
    }
  }
}

=== FILE: app.dfy ===
/**
  The shell of `App.tsx`: seeding the run list, the login and onboarding flags,
  the screen gate in front of the router, and the route table with its catch-all.
 */
module App {
  import opened Wrappers
  import opened Text
  import opened Types
  import opened Storage
  import opened Catalog

  // ---------------------------------------------------------------------------
  // Seeding
  // ---------------------------------------------------------------------------

  /** The stored run list is missing, empty text, or an empty array. */
  predicate NeedsSeed(st: Store) {
    Falsy(st.userSims) || st.userSims == Some(Doc([]))
  }

  /**
    The seeding effect: an absent or empty run list is replaced by the fifteen
    built-in runs; any other list is left alone. `None` stands for the exception
    that unparsable text raises.
   */
  function Seed(st: Store): (r: Option<Store>)
    ensures NeedsSeed(st) ==> r == Some(SaveUserSims(st, MockDatabase()))
    ensures !NeedsSeed(st) && LoadUserSims(st).Some? ==> r == Some(st)
    ensures r.None? <==> LoadUserSims(st).None?
    ensures r.Some? ==> r.value.flags == st.flags && r.value.prefs == st.prefs
  {
    match st.userSims
    case None => Some(SaveUserSims(st, MockDatabase()))
    case Some(Doc(sims)) => if |sims| == 0 then Some(SaveUserSims(st, MockDatabase())) else Some(st)
    case Some(Unparsable(text)) => if text == "" then Some(SaveUserSims(st, MockDatabase())) else None
  }

  /** Seeding twice is seeding once: the seeded list is not empty. */
  lemma SeedIdempotent(st: Store)
    requires Seed(st).Some?
    ensures Seed(Seed(st).value) == Seed(st)
  {
    var s1 := Seed(st).value;
    assert |MockDatabase()| == 15;
    assert !NeedsSeed(s1);
  }

  /**
    After seeding, the log and the statistics list the built-in history twice:
    once from the seeded store and once as the appended recent history.
   */
  lemma SeededLogRepeatsRecentHistory(st: Store)
    requires NeedsSeed(st)
    ensures var all := AllRuns(Seed(st).value).value;
            && |all| == 18
            && forall i :: 0 <= i < 3 ==> all[i] == all[15 + i]
  {
  }

  // ---------------------------------------------------------------------------
  // Flags and the gate
  // ---------------------------------------------------------------------------

  /** The shell's React state next to the store it mirrors. */
  datatype Shell = Shell(store: Store, loggedIn: bool, showOnboarding: bool)

  /** The React state says what the stored flags say. */
  predicate Consistent(a: Shell) {
    && a.loggedIn == (GetFlag(a.store, LoggedInKey) == Some("true"))
    && a.showOnboarding == (GetFlag(a.store, OnboardingKey) != Some("true"))
  }

  /** Mounting: both flags read from storage, then the seeding effect. */
  function Mount(st: Store): (r: Option<Shell>)
    ensures r.None? <==> Seed(st).None?
    ensures r.Some? ==> Consistent(r.value) && r.value.store == Seed(st).value
  {
    match Seed(st)
    case None => None
    case Some(seeded) =>
      Some(Shell(seeded, GetFlag(st, LoggedInKey) == Some("true"), GetFlag(st, OnboardingKey) != Some("true")))
  }

  /** `handleLogin`. */
  function Login(a: Shell): (r: Shell)
    requires Consistent(a)
    ensures Consistent(r) && r.loggedIn && r.showOnboarding == a.showOnboarding
    ensures GetFlag(r.store, LoggedInKey) == Some("true")
  {
    Shell(SetFlag(a.store, LoggedInKey, "true"), true, a.showOnboarding)
  }

  /** `handleLogout`: the flag is removed, not set to "false". */
  function Logout(a: Shell): (r: Shell)
    requires Consistent(a)
    ensures Consistent(r) && !r.loggedIn && r.showOnboarding == a.showOnboarding
    ensures GetFlag(r.store, LoggedInKey).None?
  {
    Shell(RemoveFlag(a.store, LoggedInKey), false, a.showOnboarding)
  }

  /** `handleOnboardingComplete`. */
  function CompleteOnboarding(a: Shell): (r: Shell)
    requires Consistent(a)
    ensures Consistent(r) && !r.showOnboarding && r.loggedIn == a.loggedIn
    ensures GetFlag(r.store, OnboardingKey) == Some("true")
  {
    Shell(SetFlag(a.store, OnboardingKey, "true"), a.loggedIn, false)
  }

  datatype Screen = OnboardingScreen | AuthScreen | MainScreen

  /** What the shell renders: onboarding first, then the login screen, then the routed pages. */
  function Gate(a: Shell): (s: Screen)
    ensures s == OnboardingScreen <==> a.showOnboarding
    ensures s == AuthScreen <==> !a.showOnboarding && !a.loggedIn
    ensures s == MainScreen <==> !a.showOnboarding && a.loggedIn
  {
    if a.showOnboarding then OnboardingScreen
    else if !a.loggedIn then AuthScreen
    else MainScreen
  }

  datatype Event = LoginEvent | LogoutEvent | OnboardingDone

  function Apply(a: Shell, e: Event): (r: Shell)
    requires Consistent(a)
    ensures Consistent(r)
    ensures !a.showOnboarding ==> !r.showOnboarding
  {
    match e
    case LoginEvent => Login(a)
    case LogoutEvent => Logout(a)
    case OnboardingDone => CompleteOnboarding(a)
  }

  function ApplyAll(a: Shell, es: seq<Event>): (r: Shell)
    requires Consistent(a)
    ensures Consistent(r)
    decreases |es|
  {
    if |es| == 0 then a else ApplyAll(Apply(a, es[0]), es[1..])
  }

  /** Once onboarding is done, no sequence of logins and logouts brings it back. */
  lemma {:induction false} OnboardingNeverReturns(a: Shell, es: seq<Event>)
    requires Consistent(a) && !a.showOnboarding
    ensures Gate(ApplyAll(a, es)) != OnboardingScreen
    ensures !ApplyAll(a, es).showOnboarding
    decreases |es|
  {
    if |es| > 0 {
      OnboardingNeverReturns(Apply(a, es[0]), es[1..]);
    }
  }

  /** The login screen appears only after onboarding, and only while logged out. */
  lemma AuthOnlyAfterOnboarding(a: Shell)
    requires Consistent(a)
    ensures Gate(a) == AuthScreen ==>
              GetFlag(a.store, OnboardingKey) == Some("true") && GetFlag(a.store, LoggedInKey) != Some("true")
  {
  }

  // ---------------------------------------------------------------------------
  // Routes
  // ---------------------------------------------------------------------------

  datatype Page = Dashboard | NewSim | Live(id: string) | HistoryPage | AnalysisPage | SettingsPage

  /** `/live/:id`: one non-empty path segment after `/live/`. */
  predicate LivePath(path: string) {
    StartsWith(path, "/live/") && |path| > 6 && Lacks(path[6..], '/')
  }

  /**
    The route table. A path matching no route is redirected to `/`, which shows
    the dashboard; the result also gives the path the address bar ends on.
   */
  function Route(path: string): (r: (Page, string))
    ensures r.0 == Dashboard ==> r.1 == "/"
    ensures r.0 != Dashboard ==> r.1 == path
    ensures LivePath(path) ==> r.0 == Live(path[6..])
    ensures r.0.Live? ==> LivePath(path)
  {
    if path == "/" then (Dashboard, "/")
    else if path == "/new" then (NewSim, path)
    else if LivePath(path) then (Live(path[6..]), path)
    else if path == "/history" then (HistoryPage, path)
    else if path == "/analysis" then (AnalysisPage, path)
    else if path == "/settings" then (SettingsPage, path)
    else (Dashboard, "/")
  }

  predicate Known(path: string) {
    path in {"/", "/new", "/history", "/analysis", "/settings"} || LivePath(path)
  }

  /** Every unknown path lands on the dashboard at `/`; every known one stays put. */
  lemma CatchAllRedirects(path: string)
    ensures !Known(path) ==> Route(path) == (Dashboard, "/")
    ensures Known(path) ==> Route(path).1 == path
  {
  }

  /** The history cards' links `/live/<id>` reach the live view with that id when the id holds no slash. */
  lemma CardLinkReachesLiveView(id: string)
    requires |id| > 0 && Lacks(id, '/')
    ensures Route("/live/" + id).0 == Live(id)
  {
    var p := "/live/" + id;
    assert p[..6] == "/live/";
    assert p[6..] == id;
  }
}

=== FILE: bottomnav.dfy ===
/** The tab bar of `components/BottomNav.tsx`. */
module BottomNav {
  import opened Text

  /** Paths under which the bar is not drawn. */
  function HidePaths(): seq<string> {
    ["/live", "/onboarding", "/auth", "/new"]
  }

  /** `hidePaths.some(p => activePath.startsWith(p))`, scanning from index `i`. */
  function HiddenFrom(path: string, i: nat): (hidden: bool)
    requires i <= |HidePaths()|
    ensures hidden <==> exists k :: i <= k < |HidePaths()| && StartsWith(path, HidePaths()[k])
    decreases |HidePaths()| - i
  {
    if i == |HidePaths()| then false
    else StartsWith(path, HidePaths()[i]) || HiddenFrom(path, i + 1)
  }

  /** The bar is hidden exactly when the path starts with one of the hidden prefixes. */
  function Hidden(path: string): (hidden: bool)
    ensures hidden <==> exists k :: 0 <= k < |HidePaths()| && StartsWith(path, HidePaths()[k])
  {
    HiddenFrom(path, 0)
  }

  /** A prefix test: the live view of any run, and anything else beginning with `/new`, hides the bar. */
  lemma HiddenUnderPrefix(rest: string)
    ensures Hidden("/live" + rest)
    ensures Hidden("/new" + rest)
  {
    assert ("/live" + rest)[..5] == "/live";
    assert ("/new" + rest)[..4] == "/new";
  }

  /** The four tabs' targets. */
  function Targets(): seq<string> {
    ["/", "/history", "/analysis", "/settings"]
  }

  /** `activePath === to`: exact equality, not a prefix test. */
  predicate Active(path: string, to: string) {
    path == to
  }

  /** The pages with a tab keep the bar. */
  lemma TabsShowBar(k: nat)
    requires k < |Targets()|
    ensures !Hidden(Targets()[k])
  {
    var path := Targets()[k];
    forall h | 0 <= h < |HidePaths()|
      ensures !StartsWith(path, HidePaths()[h])
    {
      if |HidePaths()[h]| <= |path| {
        assert path[1] != HidePaths()[h][1] || path[2] != HidePaths()[h][2];
        assert path[..|HidePaths()[h]|][1] == path[1] && path[..|HidePaths()[h]|][2] == path[2];
      }
    }
  }

  /** At most one tab is active on any path. */
  lemma AtMostOneActive(path: string, i: nat, j: nat)
    requires i < j < |Targets()|
    ensures !(Active(path, Targets()[i]) && Active(path, Targets()[j]))
  {
  }

  /** The home tab is not active on another tab's page. */
  lemma HomeNotActiveElsewhere(k: nat)
    requires 0 < k < |Targets()|
    ensures !Active(Targets()[k], "/")
  {
  }
}

=== FILE: catalog.dfy ===
/** The constant data of `constants.ts`: the seed database, the recent-history slice and the vehicle catalogue. */
module Catalog {
  import opened Wrappers
  import opened Types

  /** `MOCK_DATABASE`: the fifteen runs the application seeds its storage with. */
  function MockDatabase(): seq<Simulation> {
    [
    Simulation("db_1", None, "Projeto Orion: Alpha", Love, Completed, "18 Out, 10:20", "12m 45s", "1.1 m/s",
      Metrics("841.5 m", "1.1 m/s", 12.0, 15.0)),
    Simulation("db_2", None, "Neural Stress Test", Fear, Stopped, "17 Out, 16:45", "0m 42s", "4.8 m/s",
      Metrics("201.6 m", "4.8 m/s", 95.0, 98.0)),
    Simulation("db_3", None, "Estudo de Agregação", Aggression, Completed, "15 Out, 09:00", "5m 12s", "3.2 m/s",
      Metrics("998.4 m", "3.2 m/s", 70.0, 85.0)),
    Simulation("db_4", None, "Curiosidade Sintética", Explorer, Completed, "14 Out, 21:30", "25m 00s", "0.8 m/s",
      Metrics("1200 m", "0.8 m/s", 45.0, 42.0)),
    Simulation("db_5", None, "Lab Test: Reflex 09", Fear, Completed, "12 Out, 11:15", "2m 30s", "5.1 m/s",
      Metrics("765.0 m", "5.1 m/s", 88.0, 92.0)),
    Simulation("db_6", None, "Predação Simulada", Aggression, Stopped, "10 Out, 14:20", "1m 15s", "2.9 m/s",
      Metrics("217.5 m", "2.9 m/s", 60.0, 40.0)),
    Simulation("db_7", None, "Afeição Cruzada", Love, Completed, "08 Out, 18:05", "8m 50s", "1.4 m/s",
      Metrics("742.0 m", "1.4 m/s", 22.0, 28.0)),
    Simulation("db_8", None, "Mapeamento de Luz", Explorer, Paused, "05 Out, 08:45", "14m 20s", "0.6 m/s",
      Metrics("516.0 m", "0.6 m/s", 55.0, 53.0)),
    Simulation("db_9", None, "Experimento Omega", Aggression, Completed, "02 Out, 22:10", "4m 12s", "3.8 m/s",
      Metrics("957.6 m", "3.8 m/s", 82.0, 79.0)),
    Simulation("db_10", None, "Protocolo de Fuga", Fear, Completed, "30 Set, 12:00", "3m 05s", "4.2 m/s",
      Metrics("777.0 m", "4.2 m/s", 90.0, 85.0)),
    Simulation("db_11", None, "Busca por Calor", Love, Completed, "28 Set, 15:30", "6m 40s", "1.8 m/s",
      Metrics("720.0 m", "1.8 m/s", 35.0, 32.0)),
    Simulation("db_12", None, "Deriva Exploratória", Explorer, Stopped, "25 Set, 10:10", "0m 55s", "0.5 m/s",
      Metrics("27.5 m", "0.5 m/s", 10.0, 12.0)),
    Simulation("db_13", None, "Ataque de Precisão", Aggression, Completed, "22 Set, 17:45", "7m 20s", "3.1 m/s",
      Metrics("1364.0 m", "3.1 m/s", 75.0, 77.0)),
    Simulation("db_14", None, "Teste de Inibição", Love, Completed, "20 Set, 09:20", "11m 10s", "0.9 m/s",
      Metrics("603.0 m", "0.9 m/s", 15.0, 18.0)),
    Simulation("db_15", None, "Escaneamento Setorial", Explorer, Completed, "18 Set, 14:00", "18m 30s", "1.2 m/s",
      Metrics("1332.0 m", "1.2 m/s", 48.0, 50.0))
    ]
  }

  /** `RECENT_HISTORY = MOCK_DATABASE.slice(0, 3)`. */
  function RecentHistory(): (r: seq<Simulation>)
    ensures |r| == 3
    ensures forall i :: 0 <= i < |r| ==> r[i] == MockDatabase()[i]
  {
    MockDatabase()[..3]
  }

  /** One entry of `VEHICLE_DETAILS`. */
  datatype Details = Details(description: string, connections: string, icon: string, color: string)

  /** `VEHICLE_DETAILS[t]`; the object has a key for every enum value, so the lookup is total. */
  function VehicleDetails(t: VehicleType): Details {
    match t
    case Fear => Details("Foge rapidamente ao detectar estímulo.", "Paralelas (Excit.)", "running_with_errors", "text-yellow-500")
    case Aggression => Details("Ataca a fonte com aceleração agressiva.", "Cruzadas (Excit.)", "swords", "text-red-500")
    case Love => Details("Aproxima-se suavemente e permanece.", "Cruzadas (Inib.)", "favorite", "text-pink-500")
    case Explorer => Details("Investiga o ambiente de forma curiosa.", "Paralelas (Inib.)", "explore", "text-blue-400")
  }
}

=== FILE: catalogfacts.dfy ===
/**
  Facts about the constant data that the rest of the application relies on: the
  seed runs are protected from deletion, their duration and distance texts are in
  the shapes the analysis parsers read, and the catalogue's connection labels
  describe the wiring the live view actually uses.
 */
module CatalogFacts {
  import opened Text
  import opened Types
  import opened Catalog
  import opened Codec
  import opened Engine
  import opened Analysis
  import opened History
  import opened Lists

  /** The seed runs carry pairwise distinct `db_` ids, so the history page offers none of them for deletion. */
  lemma SeedRunsProtected()
    ensures forall i :: 0 <= i < |MockDatabase()| ==> !CanDelete(MockDatabase()[i])
    ensures forall i, j :: 0 <= i < j < |MockDatabase()| ==> MockDatabase()[i].id != MockDatabase()[j].id
  {
    var db := MockDatabase();
    forall i | 0 <= i < |db|
      ensures db[i].id[..3] == "db_"
    {
    }
  }

  /** Every run the live view saves can be deleted from the history page, and it survives deleting any other id. */
  lemma SavedRunsDeletable(s: Live, now: int, stamp: string, fixed1: real -> string, id: string)
    ensures CanDelete(SaveSimulation(s, now, stamp, fixed1))
    ensures var sim := SaveSimulation(s, now, stamp, fixed1);
            Without([sim], id) == if id == sim.id then [] else [sim]
  {
    WithoutOne(SaveSimulation(s, now, stamp, fixed1), id);
  }

  /** A duration written as `"<mins>m <secs>s"` reads back as mins * 60 + secs. */
  lemma DurationText(d: string, mins: string, secs: string)
    requires |mins| > 0 && AllDigits(mins) && AllDigits(secs)
    requires d == mins + "m " + secs + "s"
    ensures ParseDurationSeconds(d) == DigitsValue(mins) * 60 + DigitsValue(secs)
  {
    assert d == mins + "m" + " " + secs + "s";
    ParseDurationShape(mins, " ", secs, "s");
  }

  /** The minutes and seconds fields of the seed durations, in database order. */
  function SeedClock(): seq<(string, string)> {
    [("12", "45"), ("0", "42"), ("5", "12"), ("25", "00"), ("2", "30"), ("1", "15"), ("8", "50"), ("14", "20"),
     ("4", "12"), ("3", "05"), ("6", "40"), ("0", "55"), ("7", "20"), ("11", "10"), ("18", "30")]
  }

  /** Each seed duration is written as its minutes field, `m `, its seconds field and `s`. */
  lemma SeedClockSpellsDurations()
    ensures |SeedClock()| == |MockDatabase()|
    ensures forall k :: 0 <= k < |SeedClock()| ==>
              && |SeedClock()[k].0| > 0 && AllDigits(SeedClock()[k].0) && AllDigits(SeedClock()[k].1)
              && MockDatabase()[k].duration == SeedClock()[k].0 + "m " + SeedClock()[k].1 + "s"
  {
  }

  /**
    Every seed duration is in the shape the duration parser reads, so the chart
    shows minutes * 60 + seconds and never the fallback 0.
   */
  lemma SeedDurationsParse()
    ensures |SeedClock()| == |MockDatabase()|
    ensures forall k :: 0 <= k < |SeedClock()| ==>
              && |SeedClock()[k].0| > 0 && AllDigits(SeedClock()[k].0) && AllDigits(SeedClock()[k].1)
              && DurationSeries(MockDatabase())[k] ==
                   (DigitsValue(SeedClock()[k].0) * 60 + DigitsValue(SeedClock()[k].1)) as real
  {
    var db, clock := MockDatabase(), SeedClock();
    SeedClockSpellsDurations();
    forall k | 0 <= k < |clock|
      ensures DurationSeries(db)[k] == (DigitsValue(clock[k].0) * 60 + DigitsValue(clock[k].1)) as real
    {
      DurationText(db[k].duration, clock[k].0, clock[k].1);
    }
  }

  /** A distance written as `"<a>.<b> m"` reads back as the decimal a.b. */
  lemma DistanceText(d: string, a: string, b: string)
    requires |a| > 0 && AllDigits(a) && AllDigits(b)
    requires d == a + "." + b + " m"
    ensures ParseDistance(d) == DigitsValue(a) as real + DigitsValue(b) as real / Pow10(|b|) as real
  {
    ParseDistanceShape(a, b);
  }

  /** The whole and fractional digits of the recent-history distances. */
  function RecentFigures(): seq<(string, string)> {
    [("841", "5"), ("201", "6"), ("998", "4")]
  }

  /** Each recent-history distance is written as its whole digits, `.`, its fraction digits and ` m`. */
  lemma RecentFiguresSpellDistances()
    ensures |RecentFigures()| == |RecentHistory()|
    ensures forall k :: 0 <= k < |RecentFigures()| ==>
              && |RecentFigures()[k].0| > 0 && AllDigits(RecentFigures()[k].0) && AllDigits(RecentFigures()[k].1)
              && RecentHistory()[k].metrics.distance == RecentFigures()[k].0 + "." + RecentFigures()[k].1 + " m"
              && DigitsValue(RecentFigures()[k].0) as real
                   + DigitsValue(RecentFigures()[k].1) as real / Pow10(|RecentFigures()[k].1|) as real
                 == [841.5, 201.6, 998.4][k]
  {
  }

  /** The distances of the three recent-history runs, as the distance chart plots them. */
  lemma RecentHistoryDistances()
    ensures DistanceSeries(RecentHistory()) == [841.5, 201.6, 998.4]
  {
    var h, fig := RecentHistory(), RecentFigures();
    RecentFiguresSpellDistances();
    forall k | 0 <= k < |h|
      ensures DistanceSeries(h)[k] == [841.5, 201.6, 998.4][k]
    {
      DistanceText(h[k].metrics.distance, fig[k].0, fig[k].1);
    }
  }

  /** The distance card adds the recent-history runs up to 2041.5 m. */
  lemma RecentHistoryDistance()
    ensures TotalDistance(RecentHistory()) == 2041.5
  {
    RecentHistoryDistances();
    DistanceSeriesSumsToTotal(RecentHistory());
    SumOfThree(841.5, 201.6, 998.4);
  }

  /** A three-element sum unfolds to x + y + z. */
  lemma SumOfThree(x: real, y: real, z: real)
    ensures Sum([x, y, z], Id) == x + y + z
  {
    assert [x][..0] == [];
    assert Sum([x], Id) == x;
    assert [x, y][..1] == [x];
    assert Sum([x, y], Id) == x + y;
    assert [x, y, z][..2] == [x, y];
  }

  /**
    A vehicle's card says "Cruzadas" exactly when its wheels listen to the opposite
    sensors, and "(Excit.)" exactly when light speeds its wheels up.
   */
  lemma ConnectionsDescribeWiring(t: VehicleType)
    ensures VehicleDetails(t).connections ==
              (if Crossed(t) then "Cruzadas" else "Paralelas") + (if Excitatory(t) then " (Excit.)" else " (Inib.)")
  {
  }
}

=== FILE: codec.dfy ===
/**
  The text forms a run summary is stored in, and the parsers the analysis page
  reads them back with: the duration `"<m>m <s>s"` written by the live view and
  read by `parseDurationSeconds`, and the distance `"<x> m"` read by `parseDistance`.
 */
module Codec {
  import opened Wrappers
  import opened Text
  import opened Lists

  // ---------------------------------------------------------------------------
  // Duration text
  // ---------------------------------------------------------------------------

  /** `${Math.floor(s / 60)}m ${s % 60}s` for a whole number of seconds `s`. */
  function FormatDuration(seconds: int): (r: string)
    ensures seconds >= 0 ==> r == NatToString(seconds / 60) + "m " + NatToString(seconds % 60) + "s"
  {
    IntToString(seconds / 60) + "m " + IntToString(JsRem(seconds, 60)) + "s"
  }

  /** For a non-negative duration the seconds field is a number below 60. */
  lemma SecondsFieldBelowSixty(seconds: nat)
    ensures exists m: nat, s: nat ::
              && s < 60 && m * 60 + s == seconds
              && FormatDuration(seconds) == NatToString(m) + "m " + NatToString(s) + "s"
  {
    var m, s := seconds / 60, seconds % 60;
    assert s < 60 && m * 60 + s == seconds;
    assert FormatDuration(seconds) == NatToString(m) + "m " + NatToString(s) + "s";
  }

  /**
    The pattern `(\d+)m\s*(\d*)s?` matches starting at index `i`: a digit starts
    there and the longest digit run from it is followed by `m`. (A shorter run
    would be followed by a digit, so backtracking never helps.)
   */
  predicate MatchAt(d: string, i: nat) {
    i < |d| && IsDigit(d[i]) && i + DigitRun(d[i..]) < |d| && d[i + DigitRun(d[i..])] == 'm'
  }

  /** Independent reading of "a number of minutes occurs": digits `d[i..k]` directly followed by `m`. */
  predicate MinutesMarker(d: string, i: nat, k: nat) {
    i < k < |d| && AllDigits(d[i..k]) && d[k] == 'm'
  }

  /** The pattern matches somewhere exactly when some digits are followed by `m`. */
  lemma MatchIffMarker(d: string)
    ensures (exists i: nat :: MatchAt(d, i)) <==> (exists i: nat, k: nat :: MinutesMarker(d, i, k))
  {
    if exists i: nat :: MatchAt(d, i) {
      var i: nat :| MatchAt(d, i);
      var k := i + DigitRun(d[i..]);
      assert d[i..][..k - i] == d[i..k];
      assert MinutesMarker(d, i, k);
    }
    if exists i: nat, k: nat :: MinutesMarker(d, i, k) {
      var i: nat, k: nat :| MinutesMarker(d, i, k);
      assert d[i..] == d[i..k] + d[k..];
      DigitRunOfDigits(d[i..k], d[k..]);
      assert MatchAt(d, i);
    }
  }

  /** The leftmost match at or after `i`, as `String#match` without the `g` flag reports it. */
  function FirstMatch(d: string, i: nat): (r: Option<nat>)
    requires i <= |d|
    ensures r.Some? ==> i <= r.value < |d| && MatchAt(d, r.value)
    ensures r.Some? ==> forall j: nat :: i <= j < r.value ==> !MatchAt(d, j)
    ensures r.None? ==> forall j: nat :: i <= j ==> !MatchAt(d, j)
    decreases |d| - i
  {
    if i == |d| then None
    else if MatchAt(d, i) then Some(i)
    else FirstMatch(d, i + 1)
  }

  /** The seconds read after the `m`: white space skipped, then the digits that follow. */
  function ReadSeconds(rest: string): nat {
    var w := SpaceRun(rest);
    var e := w + DigitRun(rest[w..]);
    assert rest[w..][..e - w] == rest[w..e];
    DigitsValue(rest[w..e])
  }

  /**
    The value read from a match at `i`: the minutes group `(\d+)` ends at `k`,
    where the `m` stands, and the seconds are read after it.
   */
  function ReadMatch(d: string, i: nat): nat
    requires MatchAt(d, i)
  {
    var k := i + DigitRun(d[i..]);
    assert d[i..][..k - i] == d[i..k];
    DigitsValue(d[i..k]) * 60 + ReadSeconds(d[k + 1..])
  }

  /**
    `parseDurationSeconds`: minutes from the first `(\d+)m`, then seconds from the
    digits after optional white space; an empty seconds group counts as 0, and a
    string without a match reads as 0.
   */
  function ParseDurationSeconds(d: string): (r: nat)
    ensures (forall i: nat :: !MatchAt(d, i)) ==> r == 0
  {
    match FirstMatch(d, 0)
    case None => 0
    case Some(i) => ReadMatch(d, i)
  }

  lemma MatchAtStart(mins: string, rest: string)
    requires |mins| > 0 && AllDigits(mins)
    ensures MatchAt(mins + "m" + rest, 0)
    ensures DigitRun(mins + "m" + rest) == |mins|
  {
    var d := mins + "m" + rest;
    assert d == mins + ("m" + rest);
    DigitRunOfDigits(mins, "m" + rest);
    assert d[0..] == d;
  }

  lemma ParseFromStart(mins: string, rest: string)
    requires |mins| > 0 && AllDigits(mins)
    ensures ParseDurationSeconds(mins + "m" + rest) == DigitsValue(mins) * 60 + ReadSeconds(rest)
  {
    var d := mins + "m" + rest;
    MatchAtStart(mins, rest);
    assert FirstMatch(d, 0) == Some(0);
    assert d[0..] == d;
    assert d[0..|mins|] == mins;
    assert d[|mins| + 1..] == rest;
  }

  lemma ReadSecondsShape(sp: string, secs: string, tail: string)
    requires AllSpaces(sp)
    requires AllDigits(secs)
    requires |tail| == 0 || (!IsDigit(tail[0]) && !IsSpace(tail[0]))
    ensures ReadSeconds(sp + secs + tail) == DigitsValue(secs)
  {
    var rest := sp + secs + tail;
    assert rest == sp + (secs + tail);
    SpaceRunOfSpaces(sp, secs + tail);
    assert rest[|sp|..] == secs + tail;
    DigitRunOfDigits(secs, tail);
    assert rest[|sp|..|sp| + |secs|] == secs;
  }

  /**
    A duration laid out as minutes digits, `m`, white space, seconds digits and a
    tail that starts with neither a digit nor white space reads as
    minutes * 60 + seconds.
   */
  lemma ParseDurationShape(mins: string, sp: string, secs: string, tail: string)
    requires |mins| > 0 && AllDigits(mins)
    requires AllSpaces(sp)
    requires AllDigits(secs)
    requires |tail| == 0 || (!IsDigit(tail[0]) && !IsSpace(tail[0]))
    ensures ParseDurationSeconds(mins + "m" + sp + secs + tail) == DigitsValue(mins) * 60 + DigitsValue(secs)
  {
    var rest := sp + secs + tail;
    var head := mins + "m";
    Regroup(head, sp, secs);
    Regroup(head, sp + secs, tail);
    ParseFromStart(mins, rest);
    ReadSecondsShape(sp, secs, tail);
  }

  /** Round trip: the parser reads back every non-negative duration the live view writes. */
  lemma DurationRoundTrip(seconds: nat)
    ensures ParseDurationSeconds(FormatDuration(seconds)) == seconds
  {
    var mins, secs := NatToString(seconds / 60), NatToString(seconds % 60);
    assert FormatDuration(seconds) == mins + "m" + " " + secs + "s";
    ParseDurationShape(mins, " ", secs, "s");
  }

  // ---------------------------------------------------------------------------
  // Distance text
  // ---------------------------------------------------------------------------

  function Pow10(n: nat): (r: nat)
    ensures r >= 1
  {
    if n == 0 then 1 else 10 * Pow10(n - 1)
  }

  predicate IsNumericChar(c: char) {
    IsDigit(c) || c == '.'
  }

  /** The digits after a decimal point, read as a fraction: the leading digit run of `g` over 10^length. */
  function Fraction(g: string): (r: real)
    ensures r >= 0.0
    ensures DigitRun(g) == 0 ==> r == 0.0
  {
    var n := DigitRun(g);
    assert g[..n] == g[..n];
    DigitsValue(g[..n]) as real / Pow10(n) as real
  }

  /**
    `parseFloat` applied to a string of digits and dots: the longest prefix of the
    form `digits[.digits]` or `.digits`; no digits at all gives `NaN`, which the
    caller's `|| 0` turns into 0.
   */
  function ParseDecimal(f: string): (r: real)
    ensures r >= 0.0
    ensures DigitRun(f) == 0 && (|f| == 0 || f[0] != '.' || DigitRun(f[1..]) == 0) ==> r == 0.0
  {
    var ip := DigitRun(f);
    var whole := DigitsValue(f[..ip]) as real;
    if ip < |f| && f[ip] == '.' then whole + Fraction(f[ip + 1..]) else whole
  }

  /** `parseFloat(d.replace(/[^\d.]/g, '')) || 0`: every character but digits and dots is dropped first. */
  function ParseDistance(d: string): (r: real)
    ensures r >= 0.0
    ensures (forall i :: 0 <= i < |d| ==> !IsDigit(d[i])) ==> r == 0.0
  {
    var f := Keep(d, IsNumericChar);
    assert (forall i :: 0 <= i < |d| ==> !IsDigit(d[i])) ==> forall i :: 0 <= i < |f| ==> f[i] == '.' by {
      forall i | 0 <= i < |f| ensures multiset(d)[f[i]] > 0 && IsNumericChar(f[i]) {
        assert multiset(f)[f[i]] > 0;
      }
    }
    ParseDecimal(f)
  }

  lemma KeepNumericOfDigits(a: string)
    requires AllDigits(a)
    ensures Keep(a, IsNumericChar) == a
  {
    KeepAll(a, IsNumericChar);
  }

  lemma KeepNumericUnit()
    ensures Keep(" m", IsNumericChar) == ""
  {
    assert " m"[1..] == "m";
    assert "m"[1..] == "";
  }

  lemma KeepNumericShape(a: string, b: string)
    requires AllDigits(a) && AllDigits(b)
    ensures Keep(a + "." + b + " m", IsNumericChar) == a + "." + b
  {
    KeepAppend(a + "." + b, " m", IsNumericChar);
    KeepAppend(a + ".", b, IsNumericChar);
    KeepAppend(a, ".", IsNumericChar);
    KeepNumericOfDigits(a);
    KeepNumericOfDigits(b);
    KeepNumericUnit();
    assert Keep(".", IsNumericChar) == ".";
  }

  lemma ParseDecimalShape(a: string, b: string)
    requires |a| > 0 && AllDigits(a) && AllDigits(b)
    ensures ParseDecimal(a + "." + b) == DigitsValue(a) as real + DigitsValue(b) as real / Pow10(|b|) as real
  {
    var g := "." + b;
    var f := a + g;
    Regroup(a, ".", b);
    DigitRunOfDigits(a, g);
    assert f[..|a|] == a;
    assert f[|a|] == g[0] == '.';
    assert f[|a| + 1..] == g[1..] == b;
    FractionOfDigits(b);
  }

  lemma FractionOfDigits(b: string)
    requires AllDigits(b)
    ensures Fraction(b) == DigitsValue(b) as real / Pow10(|b|) as real
  {
    DigitRunOfDigits(b, "");
    assert b + "" == b;
    assert b[..|b|] == b;
  }

  /** The distance text `"<a>.<b> m"` reads back as the decimal number a.b. */
  lemma ParseDistanceShape(a: string, b: string)
    requires |a| > 0 && AllDigits(a) && AllDigits(b)
    ensures ParseDistance(a + "." + b + " m") == DigitsValue(a) as real + DigitsValue(b) as real / Pow10(|b|) as real
  {
    KeepNumericShape(a, b);
    ParseDecimalShape(a, b);
  }

  /** The distance text `"<a> m"` reads back as the whole number a. */
  lemma ParseWholeDistanceShape(a: string)
    requires |a| > 0 && AllDigits(a)
    ensures ParseDistance(a + " m") == DigitsValue(a) as real
  {
    KeepAppend(a, " m", IsNumericChar);
    KeepNumericOfDigits(a);
    KeepNumericUnit();
    assert Keep(a + " m", IsNumericChar) == a;
    DigitRunOfDigits(a, "");
    assert a + "" == a;
    assert a[..|a|] == a;
  }
}

=== FILE: engine.dfy ===
/**
  The live Braitenberg simulation of `pages/SimulationLive.tsx`: one animation
  frame senses the light with two sensors, drives the two wheels through the
  selected vehicle's wiring, moves the robot by differential-drive kinematics,
  wraps it around the 100 x 100 arena and accumulates telemetry. Also the
  controls around it (pause, reset, placing the light), the clock text and the
  run summary saved to the history.

  Trigonometry stays abstract: a `Direction` maps an angle to the unit vector
  (cos a, sin a). Square roots never appear: with d2 the squared sensor-to-light
  distance, `max(1, sqrt(d2))` squared is `max(1, d2)`, and the length of a step
  of v * (cos a, sin a) * m is |v * m|.
 */
module Engine {
  import opened Wrappers
  import opened Text
  import opened Types
  import opened Codec
  import opened Storage
  import opened Reals

  // ---------------------------------------------------------------------------
  // Constants of the live view
  // ---------------------------------------------------------------------------

  const SensorDistance: real := 4.0
  const SensorAngle: real := 0.5
  const Wheelbase: real := 5.0
  /** `Math.PI`, written with the digits of its shortest double rendering. */
  const Pi: real := 3.141592653589793
  const ArenaSize: real := 100.0
  const LightStrength: real := 1000.0
  /** Resting speed of an excitatory wheel. */
  const BaseWheel: real := 0.5
  /** Speed of an inhibitory wheel that sees no light. */
  const InhibitedTop: real := 2.0
  /** Lowest speed an inhibitory wheel is allowed to reach. */
  const WheelFloor: real := 0.1
  /** The slider gain is scaled by this factor before it multiplies an intensity. */
  const GainScale: real := 0.2

  function Max(a: real, b: real): real {
    if a >= b then a else b
  }

  function Min(a: real, b: real): real {
    if a <= b then a else b
  }

  function Abs(a: real): real {
    if a >= 0.0 then a else -a
  }

  // ---------------------------------------------------------------------------
  // State
  // ---------------------------------------------------------------------------

  datatype Vec = Vec(x: real, y: real)

  /** Vectors of length one: the values of (cos a, sin a). */
  type Unit = u: Vec | u.x * u.x + u.y * u.y == 1.0 witness Vec(1.0, 0.0)

  /** `a => (Math.cos(a), Math.sin(a))`, left abstract. */
  type Direction = real -> Unit

  datatype Pose = Pose(pos: Vec, angle: real)
  datatype Sensors = Sensors(l: real, r: real)
  datatype Wheels = Wheels(left: real, right: real)
  datatype Motion = Motion(linear: real, angular: real)

  /** `lastTimeRef.current`: `null` until the first frame has run. */
  datatype TimeRef = Null | Stamp(t: real)

  /** Everything the live view keeps between frames. */
  datatype Live = Live(
    law: VehicleType,
    name: string,
    pose: Pose,
    light: Vec,
    sensors: Sensors,   // displayed readings, 0..100
    gain: real,
    simSpeed: real,
    playing: bool,
    distance: real,
    elapsed: real,      // milliseconds
    lastTime: TimeRef)

  /** Pose at start and after reset: (50, 70), facing up the screen. */
  function InitialPose(): Pose {
    Pose(Vec(50.0, 70.0), -Pi / 2.0)
  }

  const InitialLight: Vec := Vec(50.0, 30.0)

  predicate InArena(p: Vec) {
    0.0 <= p.x <= ArenaSize && 0.0 <= p.y <= ArenaSize
  }

  /** The router state the new-simulation screen navigates with. */
  datatype Launch = Launch(vehicleType: VehicleType, gain: real, speed: int, simName: string)

  /**
    Mounting the live view. Without router state (a history card opens
    `/live/<id>` directly) the vehicle is Love and the gain 2.5; a gain of 0 is
    falsy and also becomes 2.5; an empty name becomes "Exp. <behaviour>". The
    launch speed is not read: the speed multiplier always starts at 1.
   */
  function Start(launch: Option<Launch>): (s: Live)
    ensures s.pose == InitialPose() && s.light == InitialLight
    ensures s.distance == 0.0 && s.elapsed == 0.0 && s.lastTime == Null
    ensures s.playing && s.simSpeed == 1.0 && s.gain != 0.0
    ensures launch.None? ==> s.law == Love && s.gain == 2.5 && s.name == "Exp. Amor"
    ensures launch.Some? ==> s.law == launch.value.vehicleType
    ensures launch.Some? && launch.value.gain != 0.0 ==> s.gain == launch.value.gain
    ensures launch.Some? && launch.value.simName != "" ==> s.name == launch.value.simName
    ensures launch.Some? && launch.value.simName == "" ==> s.name == "Exp. " + Name(s.law)
  {
    var law := if launch.Some? then launch.value.vehicleType else Love;
    var gain := if launch.Some? && launch.value.gain != 0.0 then launch.value.gain else 2.5;
    var name := if launch.Some? && launch.value.simName != "" then launch.value.simName else "Exp. " + AfterColon(law);
    Live(law, name, InitialPose(), InitialLight, Sensors(0.0, 0.0), gain, 1.0, true, 0.0, 0.0, Null)
  }

  // ---------------------------------------------------------------------------
  // Sensing
  // ---------------------------------------------------------------------------

  function SquaredDistance(a: Vec, b: Vec): (d: real)
    ensures d >= 0.0
  {
    (a.x - b.x) * (a.x - b.x) + (a.y - b.y) * (a.y - b.y)
  }

  /** Left and right sensor positions: 4 units out, 0.5 rad either side of the heading. */
  function SensorPositions(p: Pose, dir: Direction): (Vec, Vec) {
    var l := dir(p.angle - SensorAngle);
    var r := dir(p.angle + SensorAngle);
    (Vec(p.pos.x + l.x * SensorDistance, p.pos.y + l.y * SensorDistance),
     Vec(p.pos.x + r.x * SensorDistance, p.pos.y + r.y * SensorDistance))
  }

  /** `1000 / (dist * dist)` with `dist = max(1, sqrt(d2))`: an inverse square capped at distance 1. */
  function Falloff(d2: real): (i: real)
    ensures 0.0 < i <= LightStrength
    ensures i == LightStrength <==> d2 <= 1.0
  {
    LightStrength / Max(1.0, d2)
  }

  /** A nearer light never reads dimmer. */
  lemma FalloffAntitone(d2: real, e2: real)
    requires d2 <= e2
    ensures Falloff(d2) >= Falloff(e2)
  {
    var a, b := Max(1.0, d2), Max(1.0, e2);
    assert 1.0 <= a <= b;
    assert LightStrength / a >= LightStrength / b by {
      assert LightStrength / a * a == LightStrength;
      assert LightStrength / b * b == LightStrength;
      assert (LightStrength / a - LightStrength / b) * (a * b) == LightStrength * (b - a);
    }
  }

  function Intensity(sensor: Vec, light: Vec): real {
    Falloff(SquaredDistance(sensor, light))
  }

  /** The displayed reading `Math.min(100, intensity * 10)`. */
  function Reading(intensity: real): (r: real)
    ensures r <= 100.0
    ensures intensity > 0.0 ==> r > 0.0
    ensures intensity <= 10.0 ==> r == intensity * 10.0
  {
    Min(100.0, intensity * 10.0)
  }

  // ---------------------------------------------------------------------------
  // Wiring
  // ---------------------------------------------------------------------------

  /** Each wheel listens to the opposite sensor (Aggression and Love in this code). */
  predicate Crossed(t: VehicleType) {
    t == Aggression || t == Love
  }

  /** Light speeds the wheel up (Fear and Aggression); otherwise it slows it down. */
  predicate Excitatory(t: VehicleType) {
    t == Fear || t == Aggression
  }

  /** How one wheel responds to the intensity of the sensor wired to it. */
  function Transfer(t: VehicleType, i: real, gain: real): real {
    if Excitatory(t) then BaseWheel + i * (GainScale * gain)
    else Max(WheelFloor, InhibitedTop - i * (GainScale * gain))
  }

  /**
    With a non-negative gain and intensity, an excitatory wheel turns at least at
    its resting speed, and an inhibitory wheel between the floor and its top speed.
   */
  lemma TransferBounds(t: VehicleType, i: real, gain: real)
    ensures !Excitatory(t) ==> Transfer(t, i, gain) >= WheelFloor
    ensures gain >= 0.0 && i >= 0.0 ==>
      if Excitatory(t) then Transfer(t, i, gain) >= BaseWheel
      else Transfer(t, i, gain) <= InhibitedTop
  {
    if gain >= 0.0 && i >= 0.0 {
      ScaleOrder(0.0, i, GainScale * gain);
    }
  }

  /** More light on the wired sensor never slows an excitatory wheel nor speeds an inhibitory one. */
  lemma TransferMonotone(t: VehicleType, i1: real, i2: real, gain: real)
    requires gain >= 0.0 && i1 <= i2
    ensures Excitatory(t) ==> Transfer(t, i1, gain) <= Transfer(t, i2, gain)
    ensures !Excitatory(t) ==> Transfer(t, i1, gain) >= Transfer(t, i2, gain)
    ensures Excitatory(t) && gain > 0.0 && i1 < i2 ==> Transfer(t, i1, gain) < Transfer(t, i2, gain)
  {
    ScaleOrder(i1, i2, GainScale * gain);
  }

  /** The motor dispatch: the `switch (vehicleType)` of the frame update. */
  function DriveWheels(t: VehicleType, iL: real, iR: real, gain: real): (w: Wheels)
    ensures w.left == Transfer(t, if Crossed(t) then iR else iL, gain)
    ensures w.right == Transfer(t, if Crossed(t) then iL else iR, gain)
    ensures iL == iR ==> w.left == w.right
  {
    var gf := GainScale * gain;
    match t
    case Fear => Wheels(0.5 + iL * gf, 0.5 + iR * gf)
    case Aggression => Wheels(0.5 + iR * gf, 0.5 + iL * gf)
    case Love => Wheels(Max(0.1, 2.0 - iR * gf), Max(0.1, 2.0 - iL * gf))
    case Explorer => Wheels(Max(0.1, 2.0 - iL * gf), Max(0.1, 2.0 - iR * gf))
  }

  /** Differential drive: `v = (L + R) / 2`, `w = (R - L) / wheelbase`. */
  function Velocities(w: Wheels): (m: Motion)
    ensures m.angular == 0.0 <==> w.left == w.right
    ensures m.angular > 0.0 <==> w.right > w.left
    ensures Min(w.left, w.right) <= m.linear <= Max(w.left, w.right)
  {
    Motion((w.left + w.right) / 2.0, (w.right - w.left) / Wheelbase)
  }

  // ---------------------------------------------------------------------------
  // Moving
  // ---------------------------------------------------------------------------

  /** One frame's displacement `(v cos a, v sin a) * moveScale`. */
  function Displacement(linear: real, moveScale: real, u: Unit): Vec {
    Vec(linear * u.x * moveScale, linear * u.y * moveScale)
  }

  /** `Math.sqrt(stepX * stepX + stepY * stepY)`, which for a unit heading is |v * moveScale|. */
  function StepLength(linear: real, moveScale: real): (len: real)
    ensures len >= 0.0
    ensures len == 0.0 <==> linear * moveScale == 0.0
  {
    Abs(linear * moveScale)
  }

  /** The step length is the Euclidean length of the displacement: it is non-negative and squares to it. */
  lemma StepLengthIsNorm(linear: real, moveScale: real, u: Unit)
    ensures var d := Displacement(linear, moveScale, u);
            StepLength(linear, moveScale) * StepLength(linear, moveScale) == d.x * d.x + d.y * d.y
  {
    var k := linear * moveScale;
    var d := Displacement(linear, moveScale, u);
    assert d.x == k * u.x && d.y == k * u.y;
    assert d.x * d.x + d.y * d.y == k * k * (u.x * u.x + u.y * u.y);
    assert StepLength(linear, moveScale) * StepLength(linear, moveScale) == k * k;
  }

  /** The arena edge test: past one edge the robot reappears exactly on the opposite edge. */
  function Wrap(c: real): (r: real)
    ensures 0.0 <= r <= ArenaSize
    ensures 0.0 <= c <= ArenaSize ==> r == c
    ensures c < 0.0 ==> r == ArenaSize
    ensures c > ArenaSize ==> r == 0.0
  {
    if c < 0.0 then 100.0 else if c > 100.0 then 0.0 else c
  }

  /** What one frame computes from the pose, the light and the settings alone. */
  datatype Frame = Frame(pose: Pose, sensors: Sensors, step: real)

  function Sense(s: Live, dir: Direction): (real, real) {
    var (sl, sr) := SensorPositions(s.pose, dir);
    (Intensity(sl, s.light), Intensity(sr, s.light))
  }

  /** The wheel speeds the current readings produce. */
  function WheelsOf(s: Live, dir: Direction): Wheels {
    DriveWheels(s.law, Sense(s, dir).0, Sense(s, dir).1, s.gain)
  }

  /** `nextAngle = angle + w * moveScale`: the heading after turning at rate `m.angular`, scaled by `moveScale`. */
  function Heading(angle: real, m: Motion, moveScale: real): real {
    angle + m.angular * moveScale
  }

  /** At a positive speed multiplier the heading grows exactly when the right wheel is faster. */
  lemma TurnTowardSlower(angle: real, w: Wheels, speed: real)
    requires speed > 0.0
    ensures var next := Heading(angle, Velocities(w), speed);
            && (next > angle <==> w.right > w.left)
            && (next < angle <==> w.right < w.left)
  {
    var a := Velocities(w).angular;
    if a > 0.0 {
      ScaleOrder(0.0, a, speed);
    } else if a < 0.0 {
      ScaleOrder(a, 0.0, speed);
    }
  }

  /** `len` is the Euclidean length of `d`: non-negative, and its square is the sum of the squared components. */
  predicate IsLengthOf(len: real, d: Vec) {
    len >= 0.0 && len * len == d.x * d.x + d.y * d.y
  }

  /** The pose after turning by `m.angular` and stepping by `m.linear`, both scaled by `moveScale`. */
  function StepPose(p: Pose, m: Motion, moveScale: real, dir: Direction): (r: (Pose, real))
    ensures var d := Displacement(m.linear, moveScale, dir(r.0.angle));
            && r.0.angle == Heading(p.angle, m, moveScale)
            && r.0.pos == Vec(Wrap(p.pos.x + d.x), Wrap(p.pos.y + d.y))
            && IsLengthOf(r.1, d)
  {
    var nextAngle := Heading(p.angle, m, moveScale);
    var d := Displacement(m.linear, moveScale, dir(nextAngle));
    StepLengthIsNorm(m.linear, moveScale, dir(nextAngle));
    (Pose(Vec(Wrap(p.pos.x + d.x), Wrap(p.pos.y + d.y)), nextAngle), StepLength(m.linear, moveScale))
  }

  /**
    Wiring and motion of one frame, given the two sensed intensities. The robot
    turns toward its slower wheel, then steps along its new heading, and the
    step's length is the Euclidean length of that displacement.
   */
  function MoveFrom(p: Pose, iL: real, iR: real, law: VehicleType, gain: real, simSpeed: real, dir: Direction): (f: Frame)
    ensures InArena(f.pose.pos)
    ensures f.sensors == Sensors(Reading(iL), Reading(iR))
    ensures f.step >= 0.0
    ensures var w := DriveWheels(law, iL, iR, gain);
            && f.pose.angle == Heading(p.angle, Velocities(w), simSpeed)
            && (iL == iR ==> f.pose.angle == p.angle)
            && (simSpeed > 0.0 ==>
                  && (f.pose.angle > p.angle <==> w.right > w.left)
                  && (f.pose.angle < p.angle <==> w.right < w.left))
    ensures var d := Displacement(Velocities(DriveWheels(law, iL, iR, gain)).linear, simSpeed, dir(f.pose.angle));
            && IsLengthOf(f.step, d)
            && f.pose.pos == Vec(Wrap(p.pos.x + d.x), Wrap(p.pos.y + d.y))
  {
    var w := DriveWheels(law, iL, iR, gain);
    var m := Velocities(w);
    var moveScale := 1.0 * simSpeed;
    assert moveScale == simSpeed;
    var ps := StepPose(p, m, moveScale, dir);
    assert simSpeed > 0.0 ==>
             && (ps.0.angle > p.angle <==> w.right > w.left)
             && (ps.0.angle < p.angle <==> w.right < w.left) by {
      if simSpeed > 0.0 {
        TurnTowardSlower(p.angle, w, simSpeed);
      }
    }
    Frame(ps.0, Sensors(Reading(iL), Reading(iR)), ps.1)
  }

  /**
    Sensing, wiring and motion of one frame. The move is per frame: it is scaled by
    the speed multiplier but not by the elapsed time.
   */
  function Move(s: Live, dir: Direction): (f: Frame)
    ensures InArena(f.pose.pos)
    ensures 0.0 < f.sensors.l <= 100.0 && 0.0 < f.sensors.r <= 100.0
    ensures f.sensors == Sensors(Reading(Sense(s, dir).0), Reading(Sense(s, dir).1))
    ensures f.step >= 0.0
    ensures f.pose.angle == Heading(s.pose.angle, Velocities(WheelsOf(s, dir)), s.simSpeed)
    ensures Sense(s, dir).0 == Sense(s, dir).1 ==> f.pose.angle == s.pose.angle
    ensures var w := WheelsOf(s, dir);
            s.simSpeed > 0.0 ==>
              && (f.pose.angle > s.pose.angle <==> w.right > w.left)
              && (f.pose.angle < s.pose.angle <==> w.right < w.left)
    ensures var d := Displacement(Velocities(WheelsOf(s, dir)).linear, s.simSpeed, dir(f.pose.angle));
            && IsLengthOf(f.step, d)
            && f.pose.pos == Vec(Wrap(s.pose.pos.x + d.x), Wrap(s.pose.pos.y + d.y))
  {
    var (iL, iR) := Sense(s, dir);
    assert WheelsOf(s, dir) == DriveWheels(s.law, iL, iR, s.gain);
    MoveFrom(s.pose, iL, iR, s.law, s.gain, s.simSpeed, dir)
  }

  /** `time - lastTimeRef.current`; `null` converts to 0, so the first frame's delta is the timestamp itself. */
  function Delta(last: TimeRef, time: real): real {
    match last
    case Null => time
    case Stamp(t) => time - t
  }

  /** Nothing but the pose, readings, telemetry and timestamp changes between two states. */
  predicate SameSettings(s: Live, r: Live) {
    && r.law == s.law && r.name == s.name && r.light == s.light
    && r.gain == s.gain && r.simSpeed == s.simSpeed && r.playing == s.playing
  }

  /**
    `updateSimulation(time)`. Its guard compares the timestamp ref with
    `undefined`, but the ref starts as `null`, so only the play state decides
    whether the frame runs. A paused frame only records the timestamp.
   */
  function Tick(s: Live, time: real, dir: Direction): (r: Live)
    ensures r.lastTime == Stamp(time)
    ensures SameSettings(s, r)
    ensures !s.playing ==> r == s.(lastTime := Stamp(time))
    ensures s.playing ==> r.distance >= s.distance
    ensures s.playing && s.simSpeed >= 0.0 && Delta(s.lastTime, time) >= 0.0 ==> r.elapsed >= s.elapsed
    ensures s.playing ==> InArena(r.pose.pos)
    ensures s.playing ==> 0.0 < r.sensors.l <= 100.0 && 0.0 < r.sensors.r <= 100.0
    ensures s.playing ==> r.pose == Move(s, dir).pose && r.sensors == Move(s, dir).sensors
    ensures s.playing ==> r.distance == s.distance + Move(s, dir).step
    ensures s.playing ==> r.elapsed == ClockAfter(s.elapsed, Delta(s.lastTime, time), s.simSpeed)
  {
    if s.playing then Advance(s, time, Move(s, dir)) else s.(lastTime := Stamp(time))
  }

  /** `elapsedTime += deltaTime * simSpeed`: the clock runs at the speed multiplier. */
  function ClockAfter(elapsed: real, delta: real, speed: real): (r: real)
    ensures delta >= 0.0 && speed >= 0.0 ==> r >= elapsed
    ensures speed == 1.0 ==> r == elapsed + delta
    ensures r - elapsed == delta * speed
  {
    assert delta >= 0.0 && speed >= 0.0 ==> delta * speed >= 0.0 by {
      if delta >= 0.0 && speed >= 0.0 {
        ScaleOrder(0.0, delta, speed);
      }
    }
    elapsed + delta * speed
  }

  /** Advancing the clock by two deltas is advancing it once by their sum. */
  lemma ClockAfterAdds(elapsed: real, d1: real, d2: real, speed: real)
    ensures ClockAfter(ClockAfter(elapsed, d1, speed), d2, speed) == ClockAfter(elapsed, d1 + d2, speed)
  {
    assert d1 * speed + d2 * speed == (d1 + d2) * speed;
  }

  /** The running branch of a frame: apply the move and advance the clock by the scaled delta. */
  function Advance(s: Live, time: real, f: Frame): (r: Live)
    requires f.step >= 0.0
    ensures r.pose == f.pose && r.sensors == f.sensors && r.lastTime == Stamp(time)
    ensures r.distance == s.distance + f.step && r.distance >= s.distance
    ensures r.elapsed == ClockAfter(s.elapsed, Delta(s.lastTime, time), s.simSpeed)
    ensures s.simSpeed >= 0.0 && Delta(s.lastTime, time) >= 0.0 ==> r.elapsed >= s.elapsed
  {
    s.(pose := f.pose, sensors := f.sensors,
       distance := s.distance + f.step,
       elapsed := ClockAfter(s.elapsed, Delta(s.lastTime, time), s.simSpeed),
       lastTime := Stamp(time))
  }

  /** The very first frame is not skipped: it adds the raw timestamp, scaled by the speed, to the clock. */
  lemma FirstFrameUsesRawTimestamp(s: Live, time: real, dir: Direction)
    requires s.playing && s.lastTime == Null
    ensures Tick(s, time, dir).elapsed == ClockAfter(s.elapsed, time, s.simSpeed)
  {
  }

  /** The pose and distance after a frame do not depend on when it runs. */
  lemma MotionIgnoresClock(s: Live, t1: real, t2: real, dir: Direction)
    ensures Tick(s, t1, dir).pose == Tick(s, t2, dir).pose
    ensures Tick(s, t1, dir).distance == Tick(s, t2, dir).distance
  {
  }

  /** With both sensors equally lit every vehicle keeps its heading. */
  lemma BalancedSensorsKeepHeading(s: Live, time: real, dir: Direction)
    requires Sense(s, dir).0 == Sense(s, dir).1
    ensures Tick(s, time, dir).pose.angle == s.pose.angle
  {
  }

  /** Frames delivered one after another. */
  function Run(s: Live, times: seq<real>, dir: Direction): Live
    decreases |times|
  {
    if |times| == 0 then s else Run(Tick(s, times[0], dir), times[1..], dir)
  }

  /** Timestamps that never go backwards from the last recorded one. */
  predicate Chronological(last: TimeRef, times: seq<real>)
    decreases |times|
  {
    |times| == 0 || (Delta(last, times[0]) >= 0.0 && Chronological(Stamp(times[0]), times[1..]))
  }

  /** While paused, any sequence of frames leaves everything but the timestamp unchanged. */
  lemma {:induction false} PausedRunFreezes(s: Live, times: seq<real>, dir: Direction)
    requires !s.playing && |times| > 0
    ensures Run(s, times, dir) == s.(lastTime := Stamp(times[|times| - 1]))
    decreases |times|
  {
    var s1 := Tick(s, times[0], dir);
    if |times| > 1 {
      PausedRunFreezes(s1, times[1..], dir);
      assert times[1..][|times[1..]| - 1] == times[|times| - 1];
    }
  }

  /** While running at a non-negative speed with ordered timestamps, distance and elapsed time never decrease. */
  lemma {:induction false} RunningRunMonotone(s: Live, times: seq<real>, dir: Direction)
    requires s.playing && s.simSpeed >= 0.0
    requires Chronological(s.lastTime, times)
    ensures Run(s, times, dir).distance >= s.distance
    ensures Run(s, times, dir).elapsed >= s.elapsed
    ensures SameSettings(s, Run(s, times, dir))
    decreases |times|
  {
    if |times| > 0 {
      var s1 := Tick(s, times[0], dir);
      RunningRunMonotone(s1, times[1..], dir);
    }
  }

  /** Where the clock counts from: the last timestamp, or 0 before the first frame (`null` converts to 0). */
  function Origin(last: TimeRef): (t: real)
    ensures forall time :: Delta(last, time) == time - t
  {
    match last
    case Null => 0.0
    case Stamp(t) => t
  }

  /**
    While running, the clock telescopes: after any frames it has advanced by the
    last timestamp minus the origin, times the speed multiplier. Before the first
    frame the origin is 0, so the clock starts from the raw timestamp.
   */
  lemma {:induction false} RunClockTelescopes(s: Live, times: seq<real>, dir: Direction)
    requires s.playing && |times| > 0
    ensures Run(s, times, dir).elapsed == ClockAfter(s.elapsed, times[|times| - 1] - Origin(s.lastTime), s.simSpeed)
    decreases |times|
  {
    var s1 := Tick(s, times[0], dir);
    var sp, t0, t1 := s.simSpeed, Origin(s.lastTime), times[0];
    var dl := Delta(s.lastTime, t1);
    assert dl == t1 - t0;
    assert s1.elapsed == ClockAfter(s.elapsed, dl, sp);
    if |times| > 1 {
      var tn := times[|times| - 1];
      RunClockTelescopes(s1, times[1..], dir);
      assert times[1..][|times[1..]| - 1] == tn;
      ClockAfterAdds(s.elapsed, dl, tn - t1, sp);
      assert dl + (tn - t1) == tn - t0;
    }
  }

  // ---------------------------------------------------------------------------
  // Controls
  // ---------------------------------------------------------------------------

  /** The play/pause button. */
  function TogglePlay(s: Live): (r: Live)
    ensures r.playing != s.playing
    ensures r.(playing := s.playing) == s
  {
    s.(playing := !s.playing)
  }

  /** The reset button: pose and telemetry restart; the light, the settings and the play state stay. */
  function Reset(s: Live): (r: Live)
    ensures r.pose == InitialPose() && r.distance == 0.0 && r.elapsed == 0.0
    ensures SameSettings(s, r) && r.sensors == s.sensors && r.lastTime == s.lastTime
  {
    s.(pose := InitialPose(), distance := 0.0, elapsed := 0.0)
  }

  /** Pressing reset twice is pressing it once. */
  lemma ResetIdempotent(s: Live)
    ensures Reset(Reset(s)) == Reset(s)
  {
  }

  /** The bounding box of the arena element on screen. */
  datatype Rect = Rect(left: real, top: real, width: real, height: real)

  predicate InsideRect(click: Vec, rect: Rect) {
    rect.left <= click.x <= rect.left + rect.width && rect.top <= click.y <= rect.top + rect.height
  }

  /** A click on the arena moves the light to the clicked point, in percent of the arena's size. */
  function PlaceLight(s: Live, click: Vec, rect: Rect): (r: Live)
    requires rect.width > 0.0 && rect.height > 0.0
    ensures InsideRect(click, rect) ==> InArena(r.light)
    ensures r.light.x * rect.width == (click.x - rect.left) * 100.0
    ensures r.light.y * rect.height == (click.y - rect.top) * 100.0
    ensures r.(light := s.light) == s
  {
    var x := (click.x - rect.left) / rect.width * 100.0;
    var y := (click.y - rect.top) / rect.height * 100.0;
    assert InsideRect(click, rect) ==> 0.0 <= (click.x - rect.left) / rect.width <= 1.0;
    assert InsideRect(click, rect) ==> 0.0 <= (click.y - rect.top) / rect.height <= 1.0;
    s.(light := Vec(x, y))
  }

  // ---------------------------------------------------------------------------
  // Read-outs and the saved summary
  // ---------------------------------------------------------------------------

  /** `Math.floor(elapsedTime / 1000)`. */
  function DurationSeconds(elapsed: real): int {
    (elapsed / 1000.0).Floor
  }

  /** The two fields of the clock text for a non-negative number of seconds. */
  lemma ClockFields(sec: int, mm: string, ss: string)
    requires sec >= 0
    requires mm == PadTwo(IntToString(sec / 60)) && ss == PadTwo(IntToString(JsRem(sec, 60)))
    ensures var c := mm + ":" + ss;
            && c[|c| - 3] == ':'
            && AllDigits(c[..|c| - 3]) && DigitsValue(c[..|c| - 3]) == sec / 60
            && AllDigits(c[|c| - 2..]) && DigitsValue(c[|c| - 2..]) == sec % 60
  {
    var m, r := sec / 60, sec % 60;
    assert JsRem(sec, 60) == r;
    assert mm == PadTwo(NatToString(m)) && ss == PadTwo(NatToString(r));
    PadTwoReadsBack(m);
    PadTwoOfSmall(r);
    JoinedFields(mm, ss);
  }

  /** The `TEMPO` clock: `mm:ss`, each field padded to two digits. */
  function Clock(elapsed: real): (c: string)
    ensures |c| >= 5
    ensures elapsed >= 0.0 ==>
              var sec := DurationSeconds(elapsed);
              && c[|c| - 3] == ':'
              && AllDigits(c[..|c| - 3]) && DigitsValue(c[..|c| - 3]) == sec / 60
              && AllDigits(c[|c| - 2..]) && DigitsValue(c[|c| - 2..]) == sec % 60
  {
    var sec := DurationSeconds(elapsed);
    var mm, ss := PadTwo(IntToString(sec / 60)), PadTwo(IntToString(JsRem(sec, 60)));
    assert |mm| >= 2 && |ss| >= 2;
    if elapsed >= 0.0 then
      assert elapsed / 1000.0 >= 0.0;
      assert sec >= 0;
      ClockFields(sec, mm, ss);
      mm + ":" + ss
    else
      mm + ":" + ss
  }

  /** Below 100 minutes the clock is five characters whose fields read back as minutes and seconds. */
  lemma ClockReadsBack(elapsed: real)
    requires 0.0 <= elapsed < 6000000.0
    ensures var c := Clock(elapsed);
            var sec := DurationSeconds(elapsed);
            && |c| == 5 && c[2] == ':'
            && AllDigits(c[..2]) && DigitsValue(c[..2]) == sec / 60
            && AllDigits(c[3..]) && DigitsValue(c[3..]) == sec % 60 && sec % 60 < 60
  {
    var sec := DurationSeconds(elapsed);
    assert 0 <= sec < 6000;
    var m := sec / 60;
    assert m < 100;
    PadTwoOfSmall(m);
    var c := Clock(elapsed);
    assert c == PadTwo(NatToString(m)) + ":" + PadTwo(NatToString(sec % 60));
    assert |c| == 5;
  }

  /** `distance / (durationSeconds || 1)`: a zero duration divides by one. */
  function AverageSpeed(distance: real, seconds: int): (v: real)
    ensures seconds == 0 ==> v == distance
    ensures seconds != 0 ==> v * (seconds as real) == distance
  {
    distance / (if seconds == 0 then 1 else seconds) as real
  }

  /** The "V. Média" read-out, `distance / (elapsedTime / 1000 || 1)`, which does not round the seconds. */
  function LiveAverageSpeed(distance: real, elapsed: real): (v: real)
    ensures elapsed == 0.0 ==> v == distance
    ensures elapsed != 0.0 ==> v * (elapsed / 1000.0) == distance
  {
    distance / (if elapsed == 0.0 then 1.0 else elapsed / 1000.0)
  }

  /**
    The "Salvar" button's record. `now` is `Date.now()`, `stamp` the localised
    date text, and `fixed1` stands for `toFixed(1)`.
   */
  function SaveSimulation(s: Live, now: int, stamp: string, fixed1: real -> string): (r: Simulation)
    ensures StartsWith(r.id, "user_sim_")
    ensures r.name == s.name && r.vehicleType == s.law && r.status == Completed
    ensures r.metrics.sensorL == s.sensors.l && r.metrics.sensorR == s.sensors.r
    ensures s.elapsed >= 0.0 ==> ParseDurationSeconds(r.duration) == DurationSeconds(s.elapsed)
  {
    var seconds := DurationSeconds(s.elapsed);
    var avg := fixed1(AverageSpeed(s.distance, seconds)) + " m/s";
    assert s.elapsed >= 0.0 ==> ParseDurationSeconds(FormatDuration(seconds)) == seconds by {
      if s.elapsed >= 0.0 {
        DurationRoundTrip(seconds);
      }
    }
    assert ("user_sim_" + IntToString(now))[..9] == "user_sim_";
    Simulation("user_sim_" + IntToString(now), None, s.name, s.law, Completed, stamp,
      FormatDuration(seconds), avg,
      Metrics(fixed1(s.distance) + " m", avg, s.sensors.l, s.sensors.r))
  }

  /**
    Prepending the record to the stored list. `None` stands for the exception
    `JSON.parse` raises on unparsable text, in which case nothing is written.
   */
  function StoreRun(st: Store, sim: Simulation): (r: Option<Store>)
    ensures LoadUserSims(st).None? <==> r.None?
    ensures r.Some? ==> LoadUserSims(r.value) == Some([sim] + LoadUserSims(st).value)
    ensures r.Some? ==> r.value.flags == st.flags && r.value.prefs == st.prefs
  {
    match LoadUserSims(st)
    case None => None
    case Some(saved) => Some(SaveUserSims(st, [sim] + saved))
  }

  /** "Salvar Parâmetros Padrão": the gain, speed and vehicle become the new-simulation defaults. */
  function SavePreferences(st: Store, s: Live): (r: Store)
    ensures r.prefs == Some(Doc(Prefs(s.gain, s.simSpeed, s.law)))
    ensures r.flags == st.flags && r.userSims == st.userSims
  {
    st.(prefs := Some(Doc(Prefs(s.gain, s.simSpeed, s.law))))
  }
}

=== FILE: history.dfy ===
/**
  The run log of `pages/History.tsx`: the saved runs followed by the built-in
  history, a case-insensitive search, deleting a saved run after confirmation,
  the per-run CSV export and the decorative sensor trace on each card.
 */
module History {
  import opened Wrappers
  import opened Text
  import opened Lists
  import opened Types
  import opened Storage
  import opened Catalog
  import opened Reals

  // ---------------------------------------------------------------------------
  // Search
  // ---------------------------------------------------------------------------

  /** A run matches when its name or its vehicle's label contains the query, ignoring ASCII case. */
  predicate Matches(q: string, sim: Simulation) {
    Contains(Lower(sim.name), Lower(q)) || Contains(Lower(Label(sim.vehicleType)), Lower(q))
  }

  function Matcher(q: string): Simulation -> bool {
    (sim: Simulation) => Matches(q, sim)
  }

  /** The cards shown for a query: the matching runs, in list order. */
  function FilteredSims(sims: seq<Simulation>, q: string): (r: seq<Simulation>)
    ensures |r| <= |sims|
    ensures forall x :: multiset(r)[x] == if Matches(q, x) then multiset(sims)[x] else 0
  {
    Keep(sims, Matcher(q))
  }

  /** Every string contains the empty string. */
  lemma ContainsEmpty(s: string)
    ensures Contains(s, "")
  {
    assert StartsWith(s, "");
  }

  /** An empty search box shows every run. */
  lemma EmptyQueryShowsAll(sims: seq<Simulation>)
    ensures FilteredSims(sims, "") == sims
  {
    forall i | 0 <= i < |sims|
      ensures Matcher("")(sims[i])
    {
      ContainsEmpty(Lower(sims[i].name));
    }
    KeepAll(sims, Matcher(""));
  }

  /** Searching the whole list is searching the saved runs, then the built-in ones: order is kept. */
  lemma FilterKeepsOrder(a: seq<Simulation>, b: seq<Simulation>, q: string)
    ensures FilteredSims(a + b, q) == FilteredSims(a, q) + FilteredSims(b, q)
  {
    KeepAppend(a, b, Matcher(q));
  }

  /** Lower-casing a string of digits, lower-case letters and separators changes nothing. */
  lemma LowerOfCode(t: VehicleType)
    ensures Lower(Label(t))[..2] == Code(t)
    ensures Lower(Code(t)) == Code(t)
  {
  }

  /** Typing a vehicle's code ("3a", say) finds every run of that vehicle. */
  lemma CodeQueryFindsVehicle(sim: Simulation)
    ensures Matches(Code(sim.vehicleType), sim)
  {
    var t := sim.vehicleType;
    LowerOfCode(t);
    assert StartsWith(Lower(Label(t)), Lower(Code(t)));
  }

  // ---------------------------------------------------------------------------
  // Deleting
  // ---------------------------------------------------------------------------

  /** Only runs saved from the live view show a delete button; the built-in `db_` entries do not. */
  predicate CanDelete(sim: Simulation): (b: bool)
    ensures StartsWith(sim.id, "user_sim_") ==> b
    ensures StartsWith(sim.id, "db_") ==> !b
  {
    assert StartsWith(sim.id, "user_sim_") ==> sim.id[0] == 'u';
    !StartsWith(sim.id, "db_")
  }

  function NotId(id: string): Simulation -> bool {
    (s: Simulation) => s.id != id
  }

  /** `filter(s => s.id !== id)`: every run with that id goes, every other run stays, in order. */
  function Without(sims: seq<Simulation>, id: string): (r: seq<Simulation>)
    ensures forall i :: 0 <= i < |r| ==> r[i].id != id
    ensures forall x: Simulation :: x.id != id ==> multiset(r)[x] == multiset(sims)[x]
  {
    var r := Keep(sims, NotId(id));
    forall i | 0 <= i < |r|
      ensures r[i].id != id
    {
      assert multiset(r)[r[i]] > 0;
    }
    r
  }

  /** Deleting from a concatenation deletes from each part: the survivors keep their order. */
  lemma WithoutKeepsOrder(a: seq<Simulation>, b: seq<Simulation>, id: string)
    ensures Without(a + b, id) == Without(a, id) + Without(b, id)
  {
    KeepAppend(a, b, NotId(id));
  }

  /** A single run survives exactly when its id differs. */
  lemma WithoutOne(sim: Simulation, id: string)
    ensures Without([sim], id) == if sim.id != id then [sim] else []
  {
    assert [sim][1..] == [];
  }

  /** The page: the listed runs and `deleteConfirmId`, `None` being `null`. */
  datatype Page = Page(list: seq<Simulation>, pending: Option<string>)

  /** The delete button opens the confirmation for that run. */
  function RequestDelete(p: Page, sim: Simulation): (r: Page)
    ensures r.list == p.list && r.pending == Some(sim.id)
  {
    p.(pending := Some(sim.id))
  }

  /** "Cancelar" closes the confirmation and deletes nothing. */
  function CancelDelete(p: Page): (r: Page)
    ensures r.list == p.list && r.pending.None?
  {
    p.(pending := None)
  }

  /**
    "Excluir". With no pending id, or an empty one (falsy), nothing happens.
    Otherwise the run goes from the stored list and from the page, and the
    confirmation closes. `None` stands for the exception an unparsable stored list
    raises before anything is written.
   */
  function PerformDelete(st: Store, p: Page): (r: Option<(Store, Page)>)
    ensures p.pending.None? || p.pending == Some("") ==> r == Some((st, p))
    ensures p.pending.Some? && p.pending != Some("") ==> (r.None? <==> LoadUserSims(st).None?)
    ensures r.Some? && p.pending.Some? && p.pending != Some("") ==>
      var (st', p') := r.value;
      && LoadUserSims(st') == Some(Without(LoadUserSims(st).value, p.pending.value))
      && p'.list == Without(p.list, p.pending.value) && p'.pending.None?
      && st'.flags == st.flags && st'.prefs == st.prefs
  {
    match p.pending
    case None => Some((st, p))
    case Some(id) =>
      if id == "" then Some((st, p))
      else
        match LoadUserSims(st)
        case None => None
        case Some(saved) => Some((SaveUserSims(st, Without(saved, id)), Page(Without(p.list, id), None)))
  }

  /** The built-in history entries carry `db_` ids. */
  lemma RecentHistoryIds()
    ensures forall i :: 0 <= i < |RecentHistory()| ==> StartsWith(RecentHistory()[i].id, "db_")
  {
    var r := RecentHistory();
    assert r[0].id == "db_1" && r[1].id == "db_2" && r[2].id == "db_3";
  }

  /** Deleting a deletable run leaves the built-in entries of the page untouched. */
  lemma DeleteKeepsBuiltIns(saved: seq<Simulation>, sim: Simulation)
    requires CanDelete(sim)
    ensures Without(saved + RecentHistory(), sim.id) == Without(saved, sim.id) + RecentHistory()
  {
    RecentHistoryIds();
    var h := RecentHistory();
    forall i | 0 <= i < |h|
      ensures NotId(sim.id)(h[i])
    {
      assert StartsWith(h[i].id, "db_");
    }
    KeepAppend(saved, h, NotId(sim.id));
    KeepAll(h, NotId(sim.id));
  }

  // ---------------------------------------------------------------------------
  // CSV export
  // ---------------------------------------------------------------------------

  const CsvHeader := "id,name,type,distance,duration"

  /** The one data row: id, name, vehicle label, distance and duration. */
  function CsvRow(sim: Simulation): string {
    sim.id + "," + sim.name + "," + Label(sim.vehicleType) + "," + sim.metrics.distance + "," + sim.duration
  }

  datatype Download = Download(fileName: string, content: string)

  /** The download button: `telemetria_<id>.csv` holding the header line and the row. */
  function Export(sim: Simulation): (r: Download)
    ensures StartsWith(r.content, CsvHeader + "\n")
    ensures StartsWith(r.fileName, "telemetria_")
    ensures |r.fileName| == |sim.id| + 15
    ensures r.fileName[11..|r.fileName| - 4] == sim.id && r.fileName[|r.fileName| - 4..] == ".csv"
  {
    var content := CsvHeader + "\n" + CsvRow(sim);
    assert content[..|CsvHeader + "\n"|] == CsvHeader + "\n";
    var fileName := "telemetria_" + sim.id + ".csv";
    assert fileName[..11] == "telemetria_";
    Download(fileName, content)
  }

  /** A field that needs no quoting: it holds neither a comma nor a line break. */
  predicate CsvSafe(s: string) {
    Lacks(s, ',') && Lacks(s, '\n')
  }

  lemma LacksAppend(a: string, b: string, c: char)
    requires Lacks(a, c) && Lacks(b, c)
    ensures Lacks(a + b, c)
  {
    forall i | 0 <= i < |a + b|
      ensures (a + b)[i] != c
    {
      if i >= |a| {
        assert (a + b)[i] == b[i - |a|];
      }
    }
  }

  lemma LabelCsvSafe(t: VehicleType)
    ensures CsvSafe(Label(t))
  {
  }

  /** The row is a single line when no field holds a line break. */
  lemma RowIsOneLine(sim: Simulation)
    requires Lacks(sim.id, '\n') && Lacks(sim.name, '\n')
    requires Lacks(sim.metrics.distance, '\n') && Lacks(sim.duration, '\n')
    ensures Lacks(CsvRow(sim), '\n')
  {
    var l := Label(sim.vehicleType);
    LabelCsvSafe(sim.vehicleType);
    var row := sim.id;
    assert Lacks(",", '\n');
    LacksAppend(row, ",", '\n');
    LacksAppend(row + ",", sim.name, '\n');
    row := row + "," + sim.name;
    LacksAppend(row, ",", '\n');
    LacksAppend(row + ",", l, '\n');
    row := row + "," + l;
    LacksAppend(row, ",", '\n');
    LacksAppend(row + ",", sim.metrics.distance, '\n');
    row := row + "," + sim.metrics.distance;
    LacksAppend(row, ",", '\n');
    LacksAppend(row + ",", sim.duration, '\n');
    row := row + "," + sim.duration;
    assert row == CsvRow(sim);
  }

  /** The header names the five columns. */
  lemma HeaderFields()
    ensures Split(CsvHeader, ",") == ["id", "name", "type", "distance", "duration"]
  {
    assert CsvHeader == "id" + "," + "name" + "," + "type" + "," + "distance" + "," + "duration";
    SplitFive("id", "name", "type", "distance", "duration", ",");
  }

  /** The row splits back into the five fields when none of them holds a comma. */
  lemma RowFields(sim: Simulation)
    requires Lacks(sim.id, ',') && Lacks(sim.name, ',')
    requires Lacks(sim.metrics.distance, ',') && Lacks(sim.duration, ',')
    ensures Split(CsvRow(sim), ",") == [sim.id, sim.name, Label(sim.vehicleType), sim.metrics.distance, sim.duration]
  {
    LabelCsvSafe(sim.vehicleType);
    SplitFive(sim.id, sim.name, Label(sim.vehicleType), sim.metrics.distance, sim.duration, ",");
  }

  /**
    When no field needs quoting, the file reads back: two lines, the header's five
    column names, and the row's five fields in the same order.
   */
  lemma ExportReadsBack(sim: Simulation)
    requires CsvSafe(sim.id) && CsvSafe(sim.name)
    requires CsvSafe(sim.metrics.distance) && CsvSafe(sim.duration)
    ensures var lines := Split(Export(sim).content, "\n");
            && lines == [CsvHeader, CsvRow(sim)]
            && Split(lines[0], ",") == ["id", "name", "type", "distance", "duration"]
            && Split(lines[1], ",") == [sim.id, sim.name, Label(sim.vehicleType), sim.metrics.distance, sim.duration]
  {
    RowIsOneLine(sim);
    SplitAt(CsvHeader, "\n", CsvRow(sim));
    SplitWithout(CsvRow(sim), "\n");
    HeaderFields();
    RowFields(sim);
  }

  // ---------------------------------------------------------------------------
  // Card sensor trace
  // ---------------------------------------------------------------------------

  const TraceLength := 24

  /** `Math.max(10, Math.min(90, v))`. */
  function Clamp(v: real): (r: real)
    ensures 10.0 <= r <= 90.0
    ensures 10.0 <= v <= 90.0 ==> r == v
  {
    if v < 10.0 then 10.0 else if v > 90.0 then 90.0 else v
  }

  /**
    One of the two decorative traces: 24 samples around the run's stored sensor
    reading. `wobble(i)` stands for the sine variance plus the random noise of sample `i`.
   */
  function Trace(base: real, wobble: nat -> real): (r: seq<real>)
    ensures |r| == TraceLength
    ensures forall i :: 0 <= i < |r| ==> r[i] == Clamp(base + wobble(i))
  {
    seq(TraceLength, i requires 0 <= i < TraceLength => Clamp(base + wobble(i)))
  }

  const TraceWidth: real := 240.0
  const TraceHeight: real := 48.0

  /** Sample `i` of a trace as drawn: `x = i / 23 * 240`, `y = 48 - v / 100 * 48`. */
  function TracePoint(i: nat, v: real): (real, real) {
    ((i as real / (TraceLength - 1) as real) * TraceWidth, TraceHeight - (v / 100.0) * TraceHeight)
  }

  /** Every drawn sample stays inside the 240 x 48 box, away from its top and bottom edges. */
  lemma TraceInsideBox(base: real, wobble: nat -> real, i: nat)
    requires i < TraceLength
    ensures var (x, y) := TracePoint(i, Trace(base, wobble)[i]);
            && 0.0 <= x <= TraceWidth
            && 4.8 <= y <= 43.2
  {
    QuotientUnit(i as real, 23.0);
    var a := i as real / 23.0;
    ScaleOrder(a, 1.0, TraceWidth);
    ScaleOrder(0.0, a, TraceWidth);
  }
}

=== FILE: lists.dfy ===
/** `Array#filter` and the summing `Array#reduce`, over Dafny sequences. */
module Lists {

  /** `xs.filter(p)`: the elements satisfying `p`, in their original order. */
  function Keep<T(!new)>(xs: seq<T>, p: T -> bool): (r: seq<T>)
    ensures |r| <= |xs|
    ensures forall x :: multiset(r)[x] == if p(x) then multiset(xs)[x] else 0
    decreases |xs|
  {
    if |xs| == 0 then []
    else
      var rest := Keep(xs[1..], p);
      assert xs == [xs[0]] + xs[1..];
      assert multiset(xs) == multiset{xs[0]} + multiset(xs[1..]);
      if p(xs[0]) then [xs[0]] + rest else rest
  }

  /** Filtering distributes over concatenation, so the kept elements stay in their relative order. */
  lemma {:induction false} KeepAppend<T(!new)>(a: seq<T>, b: seq<T>, p: T -> bool)
    ensures Keep(a + b, p) == Keep(a, p) + Keep(b, p)
    decreases |a|
  {
    if |a| == 0 {
      assert a + b == b;
    } else {
      assert (a + b)[1..] == a[1..] + b;
      KeepAppend(a[1..], b, p);
    }
  }

  /** A predicate that holds everywhere keeps the whole sequence. */
  lemma {:induction false} KeepAll<T(!new)>(xs: seq<T>, p: T -> bool)
    requires forall i :: 0 <= i < |xs| ==> p(xs[i])
    ensures Keep(xs, p) == xs
    decreases |xs|
  {
    if |xs| > 0 {
      KeepAll(xs[1..], p);
    }
  }

  /** `xs.reduce((acc, x) => acc + f(x), 0)`, folding from the left. */
  function Sum<T>(xs: seq<T>, f: T -> real): real
    decreases |xs|
  {
    if |xs| == 0 then 0.0 else Sum(xs[..|xs| - 1], f) + f(xs[|xs| - 1])
  }

  lemma {:induction false} SumAppend<T>(a: seq<T>, b: seq<T>, f: T -> real)
    ensures Sum(a + b, f) == Sum(a, f) + Sum(b, f)
    decreases |b|
  {
    if |b| == 0 {
      assert a + b == a;
    } else {
      assert (a + b)[..|a + b| - 1] == a + b[..|b| - 1];
      SumAppend(a, b[..|b| - 1], f);
    }
  }

  /** A sum of non-negative terms is non-negative. */
  lemma {:induction false} SumNonNegative<T>(xs: seq<T>, f: T -> real)
    requires forall i :: 0 <= i < |xs| ==> f(xs[i]) >= 0.0
    ensures Sum(xs, f) >= 0.0
    decreases |xs|
  {
    if |xs| > 0 {
      SumNonNegative(xs[..|xs| - 1], f);
    }
  }

  /** Filtering sees only which elements occur and how often, not their order. */
  lemma KeepPermutation<T(!new)>(a: seq<T>, b: seq<T>, p: T -> bool)
    requires multiset(a) == multiset(b)
    ensures multiset(Keep(a, p)) == multiset(Keep(b, p))
    ensures |Keep(a, p)| == |Keep(b, p)|
  {
    assert |Keep(a, p)| == |multiset(Keep(a, p))|;
    assert |Keep(b, p)| == |multiset(Keep(b, p))|;
  }

  /** A sum does not depend on the order of its terms. */
  lemma {:induction false} SumPermutation<T>(xs: seq<T>, ys: seq<T>, f: T -> real)
    requires multiset(xs) == multiset(ys)
    ensures Sum(xs, f) == Sum(ys, f)
    decreases |xs|
  {
    if |xs| == 0 {
      assert |ys| == |multiset(ys)| == 0;
    } else {
      var n := |xs| - 1;
      var x := xs[n];
      assert xs == xs[..n] + [x];
      assert x in multiset(ys);
      var j :| 0 <= j < |ys| && ys[j] == x;
      var rest := ys[..j] + ys[j + 1..];
      assert ys == ys[..j] + [x] + ys[j + 1..];
      assert multiset(ys) == multiset(rest) + multiset{x};
      assert multiset(xs) == multiset(xs[..n]) + multiset{x};
      assert multiset(xs[..n]) == multiset(xs) - multiset{x};
      assert multiset(rest) == multiset(ys) - multiset{x};
      SumPermutation(xs[..n], rest, f);
      SumAppend(ys[..j] + [x], ys[j + 1..], f);
      SumAppend(ys[..j], [x], f);
      SumAppend(ys[..j], ys[j + 1..], f);
      assert Sum([x], f) == f(x) by {
        assert [x][..0] == [];
      }
    }
  }

  /** The position of the first largest value: what a stable sort by descending value puts in front. */
  function FirstMax(xs: seq<int>): (k: nat)
    requires |xs| > 0
    ensures k < |xs|
    ensures forall i :: 0 <= i < |xs| ==> xs[i] <= xs[k]
    ensures forall i :: 0 <= i < k ==> xs[i] < xs[k]
    decreases |xs|
  {
    if |xs| == 1 then 0
    else
      var k := FirstMax(xs[1..]);
      if xs[0] >= xs[1..][k] then 0 else k + 1
  }

  /** `xs.indexOf(x)`: the first position holding `x`, or -1 when there is none. */
  function IndexOf<T(==)>(xs: seq<T>, x: T): (r: int)
    ensures -1 <= r < |xs|
    ensures r == -1 <==> x !in xs
    ensures r >= 0 ==> xs[r] == x && forall i :: 0 <= i < r ==> xs[i] != x
    decreases |xs|
  {
    if |xs| == 0 then -1
    else if xs[0] == x then 0
    else
      var r := IndexOf(xs[1..], x);
      assert x in xs[1..] <==> x in xs;
      if r == -1 then -1 else r + 1
  }
}

=== FILE: newsimulation.dfy ===
/**
  The set-up form of `pages/NewSimulation.tsx`: defaults read from the saved
  preferences, the run name that follows the chosen vehicle, the reset button,
  the launch into the live view and the "n de 4" position indicator.
 */
module NewSimulation {
  import opened Wrappers
  import opened Types
  import opened Storage
  import opened Engine
  import opened Lists

  const DefaultGain: real := 2.5
  const DefaultSpeed: int := 80

  /** The first selected vehicle: the saved one, or Love when nothing (or nothing parsable) is saved. */
  function InitialVehicle(st: Store): (t: VehicleType)
    ensures st.prefs.None? || st.prefs.value.Unparsable? ==> t == Love
    ensures st.prefs.Some? && st.prefs.value.Doc? ==> t == st.prefs.value.value.vehicleType
  {
    match st.prefs
    case Some(Doc(p)) => p.vehicleType
    case _ => Love
  }

  /** The first gain: the saved `neuralGain` when it is truthy (non-zero), otherwise 2.5. */
  function InitialGain(st: Store): (g: real)
    ensures g != 0.0
    ensures st.prefs.Some? && st.prefs.value.Doc? && st.prefs.value.value.neuralGain != 0.0 ==>
              g == st.prefs.value.value.neuralGain
    ensures !(st.prefs.Some? && st.prefs.value.Doc?) ==> g == DefaultGain
  {
    match st.prefs
    case Some(Doc(p)) => if p.neuralGain != 0.0 then p.neuralGain else DefaultGain
    case _ => DefaultGain
  }

  /** `Exp. <behaviour>`: the name the form proposes for a vehicle. */
  function DefaultName(t: VehicleType): (name: string)
    ensures name == "Exp. " + Name(t)
  {
    "Exp. " + AfterColon(t)
  }

  /** Distinct vehicles propose distinct names. */
  lemma DefaultNameInjective(a: VehicleType, b: VehicleType)
    ensures DefaultName(a) == DefaultName(b) ==> a == b
  {
    if DefaultName(a) == DefaultName(b) {
      assert DefaultName(a)[5..] == Name(a);
      assert DefaultName(b)[5..] == Name(b);
    }
  }

  /** The form's state. */
  datatype Form = Form(vehicle: VehicleType, gain: real, speed: int, name: string)

  /** The form on arrival: saved defaults, power 80, and the name effect having run once. */
  function Open(st: Store): (f: Form)
    ensures f.vehicle == InitialVehicle(st) && f.gain == InitialGain(st) && f.speed == DefaultSpeed
    ensures f.name == DefaultName(f.vehicle)
  {
    var t := InitialVehicle(st);
    Form(t, InitialGain(st), DefaultSpeed, DefaultName(t))
  }

  /**
    Clicking a vehicle card. Choosing another vehicle re-runs the name effect,
    replacing whatever was typed; choosing the selected one again changes nothing.
   */
  function SelectVehicle(f: Form, t: VehicleType): (r: Form)
    ensures r.vehicle == t && r.gain == f.gain && r.speed == f.speed
    ensures t != f.vehicle ==> r.name == DefaultName(t)
    ensures t == f.vehicle ==> r == f
  {
    if t == f.vehicle then f else f.(vehicle := t, name := DefaultName(t))
  }

  /** Typing in the name field. */
  function TypeName(f: Form, name: string): (r: Form)
    ensures r.name == name && r.(name := f.name) == f
  {
    f.(name := name)
  }

  /** "Resetar": Love, gain 2.5, power 80 and Love's default name. */
  function Reset(f: Form): (r: Form)
    ensures r == Form(Love, DefaultGain, DefaultSpeed, DefaultName(Love))
  {
    Form(Love, 2.5, 80, "Exp. Amor")
  }

  /** After a reset the name effect has nothing to change: the form already shows Love's default name. */
  lemma ResetAgreesWithNameEffect(f: Form)
    ensures SelectVehicle(Reset(f), Love) == Reset(f)
    ensures Reset(f) == Open(Cleared())
  {
  }

  /** "Iniciar": the router state for the live view; an empty name becomes "Nova Simulação". */
  function StartSimulation(f: Form): (l: Launch)
    ensures l.vehicleType == f.vehicle && l.gain == f.gain && l.speed == f.speed
    ensures f.name != "" ==> l.simName == f.name
    ensures f.name == "" ==> l.simName == "Nova Simulação"
  {
    Launch(f.vehicle, f.gain, f.speed, if f.name == "" then "Nova Simulação" else f.name)
  }

  /** The live view starts with the form's vehicle and name, and its gain unless that gain is 0. */
  lemma LaunchReachesLiveView(f: Form)
    ensures var s := Start(Some(StartSimulation(f)));
            && s.law == f.vehicle
            && s.name == (if f.name == "" then "Nova Simulação" else f.name)
            && (f.gain != 0.0 ==> s.gain == f.gain)
            && (f.gain == 0.0 ==> s.gain == DefaultGain)
  {
  }

  /** Saving parameters in the live view makes them the next form's defaults. */
  lemma PreferencesReadBack(st: Store, s: Live)
    ensures InitialVehicle(SavePreferences(st, s)) == s.law
    ensures s.gain != 0.0 ==> InitialGain(SavePreferences(st, s)) == s.gain
  {
  }

  /** `Object.keys(VehicleType)`: the enum's members in declaration order. */
  function KeyOrder(): seq<VehicleType> {
    [Fear, Aggression, Love, Explorer]
  }

  /** Where `t` is declared in the enum, counting from 0. */
  function Ordinal(t: VehicleType): nat {
    match t
    case Fear => 0
    case Aggression => 1
    case Love => 2
    case Explorer => 3
  }

  /** `indexOf` of the first key whose value is `t`, plus one: the "n de 4" indicator. */
  function Position(t: VehicleType): (n: int)
    ensures 1 <= n <= 4
    ensures KeyOrder()[n - 1] == t
  {
    assert KeyOrder()[Ordinal(t)] == t;
    IndexOf(KeyOrder(), t) + 1
  }

  /** Different vehicles show different positions. */
  lemma PositionInjective(a: VehicleType, b: VehicleType)
    ensures Position(a) == Position(b) ==> a == b
  {
  }
}

=== FILE: onboarding.dfy ===
/** The three-slide introduction of `pages/Onboarding.tsx`. */
module Onboarding {

  const SlideCount: nat := 3

  /** A slide index. */
  type Step = s: nat | s < SlideCount

  /** What a button press leads to: another slide, or `onComplete` with the step left as it was. */
  datatype Outcome = Outcome(step: Step, completed: bool)

  /** The step the page starts on. */
  const First: Step := 0

  /** "Próximo": the next slide, or completion on the last one. */
  function Next(s: Step): (o: Outcome)
    ensures s < SlideCount - 1 ==> o == Outcome(s + 1, false)
    ensures s == SlideCount - 1 ==> o == Outcome(s, true)
  {
    if s < SlideCount - 1 then Outcome(s + 1, false) else Outcome(s, true)
  }

  /** "Pular": completes from any slide. */
  function Skip(s: Step): (o: Outcome)
    ensures o.completed && o.step == s
  {
    Outcome(s, true)
  }

  /** Pressing "Próximo" `n` times from the first slide, stopping at completion. */
  function Presses(n: nat): (o: Outcome)
    ensures n < SlideCount ==> o == Outcome(n, false)
    decreases n
  {
    if n == 0 then Outcome(First, false)
    else
      var o := Presses(n - 1);
      if o.completed then o else Next(o.step)
  }

  /** The introduction completes on exactly the third press, never earlier, and stays on the last slide. */
  lemma CompletesOnThirdPress(n: nat)
    ensures Presses(n).completed <==> n >= SlideCount
    ensures n >= SlideCount - 1 ==> Presses(n).step == SlideCount - 1
    decreases n
  {
    if n > 0 {
      CompletesOnThirdPress(n - 1);
    }
  }

  /** The indicator: one dot per slide, the current one highlighted. */
  function Dots(s: Step): (d: seq<bool>)
    ensures |d| == SlideCount
    ensures d[s]
    ensures forall i, j :: 0 <= i < j < |d| ==> !(d[i] && d[j])
  {
    seq(SlideCount, i requires 0 <= i < SlideCount => i == s)
  }

  /** The main button's text. */
  function ButtonLabel(s: Step): (text: string)
    ensures text == "Iniciar Jornada" <==> s == SlideCount - 1
    ensures text == "Próximo" <==> s != SlideCount - 1
  {
    if s == SlideCount - 1 then "Iniciar Jornada" else "Próximo"
  }
}

=== FILE: reals.dfy ===
/** Ordered-field facts the solver does not find on its own: scaling and dividing keep order. */
module Reals {

  /** Scaling by a non-negative factor keeps order; a positive factor keeps it strict. */
  lemma ScaleOrder(a: real, b: real, g: real)
    requires a <= b && g >= 0.0
    ensures a * g <= b * g
    ensures a < b && g > 0.0 ==> a * g < b * g
  {
    assert b * g - a * g == (b - a) * g;
  }

  /** Dividing by a positive number keeps order, strictly when it was strict. */
  lemma QuotientOrder(u: real, v: real, m: real)
    requires m > 0.0 && u <= v
    ensures u / m <= v / m
    ensures u < v ==> u / m < v / m
  {
    assert (v / m - u / m) * m == v - u;
  }

  /** A value between 0 and a positive bound, divided by that bound, lies in [0, 1]. */
  lemma QuotientUnit(u: real, m: real)
    requires m > 0.0 && 0.0 <= u <= m
    ensures 0.0 <= u / m <= 1.0
  {
    QuotientOrder(0.0, u, m);
    QuotientOrder(u, m, m);
  }
}

=== FILE: settings.dfy ===
/**
  The preferences page of `pages/Settings.tsx`: three on/off toggles persisted as
  the strings "true"/"false", the light/dark theme switch and clearing all data.
 */
module Settings {
  import opened Wrappers
  import opened Storage

  datatype Toggle = SmoothAnimations | HapticFeedback | Notifications

  function Key(t: Toggle): string {
    match t
    case SmoothAnimations => "smoothAnimations"
    case HapticFeedback => "hapticFeedback"
    case Notifications => "notifications"
  }

  lemma KeyInjective(a: Toggle, b: Toggle)
    ensures Key(a) == Key(b) ==> a == b
  {
  }

  /** `String(b)`. */
  function BoolText(b: bool): string {
    if b then "true" else "false"
  }

  /** A toggle's first value: on, unless its entry is exactly "false". */
  function Read(st: Store, t: Toggle): (b: bool)
    ensures GetFlag(st, Key(t)).None? ==> b
    ensures !b <==> GetFlag(st, Key(t)) == Some("false")
  {
    GetFlag(st, Key(t)) != Some("false")
  }

  /** The sync effect: `setItem(key, String(value))`. */
  function Write(st: Store, t: Toggle, b: bool): (r: Store)
    ensures GetFlag(r, Key(t)) == Some(BoolText(b))
    ensures forall u :: u != t ==> GetFlag(r, Key(u)) == GetFlag(st, Key(u))
  {
    forall u | u != t
      ensures Key(u) != Key(t)
    {
      KeyInjective(u, t);
    }
    SetFlag(st, Key(t), BoolText(b))
  }

  /** What a toggle writes is what it reads back, and the other toggles are unaffected. */
  lemma WriteReadsBack(st: Store, t: Toggle, b: bool)
    ensures Read(Write(st, t, b), t) == b
    ensures forall u :: u != t ==> Read(Write(st, t, b), u) == Read(st, u)
  {
  }

  /** The three switches as the page holds them. */
  datatype Toggles = Toggles(smooth: bool, haptic: bool, notify: bool)

  function Value(v: Toggles, t: Toggle): bool {
    match t
    case SmoothAnimations => v.smooth
    case HapticFeedback => v.haptic
    case Notifications => v.notify
  }

  /** The page's switches agree with storage. */
  predicate Synced(v: Toggles, st: Store) {
    forall t :: Value(v, t) == Read(st, t)
  }

  /** Mounting the page: each switch from its entry, then each sync effect writing it back. */
  function Open(st: Store): (r: (Toggles, Store))
    ensures Synced(r.0, r.1)
    ensures forall t :: Value(r.0, t) == Read(st, t)
  {
    var v := Toggles(Read(st, SmoothAnimations), Read(st, HapticFeedback), Read(st, Notifications));
    var s1 := Write(st, SmoothAnimations, v.smooth);
    var s2 := Write(s1, HapticFeedback, v.haptic);
    var s3 := Write(s2, Notifications, v.notify);
    (v, s3)
  }

  /** Clicking a toggle row: `onChange(!checked)`, then the sync effect. */
  function Click(v: Toggles, st: Store, t: Toggle): (r: (Toggles, Store))
    requires Synced(v, st)
    ensures Value(r.0, t) == !Value(v, t)
    ensures forall u :: u != t ==> Value(r.0, u) == Value(v, u)
    ensures Synced(r.0, r.1)
  {
    var b := !Value(v, t);
    var v' := match t
      case SmoothAnimations => v.(smooth := b)
      case HapticFeedback => v.(haptic := b)
      case Notifications => v.(notify := b);
    (v', Write(st, t, b))
  }

  /** Two clicks on the same row restore the switch and its stored text. */
  lemma ClickTwiceRestores(v: Toggles, st: Store, t: Toggle)
    requires Synced(v, st)
    ensures var (v1, s1) := Click(v, st, t);
            var (v2, s2) := Click(v1, s1, t);
            v2 == v && Read(s2, t) == Read(st, t)
  {
  }

  /** The theme buttons: the document's `dark` class and the stored theme. */
  function ToggleDarkMode(st: Store, isDark: bool): (r: (bool, Store))
    ensures r.0 == isDark
    ensures GetFlag(r.1, ThemeKey) == Some(if isDark then "dark" else "light")
    ensures forall k :: k != ThemeKey ==> GetFlag(r.1, k) == GetFlag(st, k)
    ensures r.1.userSims == st.userSims && r.1.prefs == st.prefs
  {
    (isDark, SetFlag(st, ThemeKey, if isDark then "dark" else "light"))
  }

  /** After "Limpar Dados Locais" and the reload, every switch is on again. */
  lemma ClearedTogglesOn(t: Toggle)
    ensures Read(Cleared(), t)
    ensures Value(Open(Cleared()).0, t)
  {
  }
}

=== FILE: storage.dfy ===
/**
  The browser's `localStorage`, as the application uses it. Plain string entries
  (login and onboarding flags, settings toggles, theme) live in a string map. The
  two entries written with `JSON.stringify` are kept as typed slots: either the
  document that was stored, or text that `JSON.parse` would reject.
 */
module Storage {
  import opened Wrappers
  import opened Types
  import opened Catalog

  /** An entry written with `JSON.stringify`; `Unparsable("")` is the empty string. */
  datatype Json<T> = Doc(value: T) | Unparsable(text: string)

  /** The object saved under `braitenberg_prefs` by the live view's "save parameters" button. */
  datatype Prefs = Prefs(neuralGain: real, simSpeed: real, vehicleType: VehicleType)

  datatype Store = Store(
    flags: map<string, string>,
    userSims: Option<Json<seq<Simulation>>>,  // key 'userSimulations'
    prefs: Option<Json<Prefs>>)               // key 'braitenberg_prefs'

  const LoggedInKey := "isLoggedIn"
  const OnboardingKey := "hasSeenOnboarding"
  const ThemeKey := "theme"

  /** `localStorage.clear()`: nothing is stored. */
  function Cleared(): Store {
    Store(map[], None, None)
  }

  /** `localStorage.getItem(key)` for a plain entry; `None` is `null`. */
  function GetFlag(st: Store, key: string): Option<string> {
    if key in st.flags then Some(st.flags[key]) else None
  }

  /** `localStorage.setItem(key, value)` for a plain entry. */
  function SetFlag(st: Store, key: string, value: string): (r: Store)
    ensures GetFlag(r, key) == Some(value)
    ensures forall k :: k != key ==> GetFlag(r, k) == GetFlag(st, k)
    ensures r.userSims == st.userSims && r.prefs == st.prefs
  {
    st.(flags := st.flags[key := value])
  }

  /** `localStorage.removeItem(key)` for a plain entry. */
  function RemoveFlag(st: Store, key: string): (r: Store)
    ensures GetFlag(r, key) == None
    ensures forall k :: k != key ==> GetFlag(r, k) == GetFlag(st, k)
    ensures r.userSims == st.userSims && r.prefs == st.prefs
  {
    st.(flags := st.flags - {key})
  }

  /** `!localStorage.getItem(key)` for a JSON entry: the key is absent or holds the empty string. */
  predicate Falsy<T>(v: Option<Json<T>>) {
    v.None? || v == Some(Unparsable(""))
  }

  /**
    `JSON.parse(localStorage.getItem('userSimulations') || '[]')`: an absent or
    empty entry reads as the empty list; `None` stands for the exception that
    unparsable text raises.
   */
  function LoadUserSims(st: Store): (r: Option<seq<Simulation>>)
    ensures Falsy(st.userSims) ==> r == Some([])
    ensures st.userSims.Some? && st.userSims.value.Doc? ==> r == Some(st.userSims.value.value)
    ensures r.None? <==> !Falsy(st.userSims) && st.userSims.value.Unparsable?
  {
    match st.userSims
    case None => Some([])
    case Some(Doc(sims)) => Some(sims)
    case Some(Unparsable(text)) => if text == "" then Some([]) else None
  }

  /** `localStorage.setItem('userSimulations', JSON.stringify(sims))`. */
  function SaveUserSims(st: Store, sims: seq<Simulation>): (r: Store)
    ensures LoadUserSims(r) == Some(sims)
    ensures r.flags == st.flags && r.prefs == st.prefs
  {
    st.(userSims := Some(Doc(sims)))
  }

  /** The saved runs followed by the built-in history, as the log and the statistics pages list them. */
  function AllRuns(st: Store): (r: Option<seq<Simulation>>)
    ensures r.None? <==> LoadUserSims(st).None?
    ensures r.Some? ==> |r.value| == |LoadUserSims(st).value| + |RecentHistory()|
    ensures r.Some? ==> r.value[..|LoadUserSims(st).value|] == LoadUserSims(st).value
    ensures r.Some? ==> r.value[|LoadUserSims(st).value|..] == RecentHistory()
  {
    match LoadUserSims(st)
    case None => None
    case Some(saved) => Some(saved + RecentHistory())
  }
}

=== FILE: text.dfy ===
/**
  The JavaScript string and number primitives the application relies on, stated
  over Dafny strings (`seq<char>`) and unbounded integers: decimal digits and
  `Number#toString` for integers, the `%` operator, `String#startsWith`,
  `String#includes`, `String#split`, `String#padStart(2, '0')`, an ASCII
  `toLowerCase`, and the regular-expression classes `\d` and `\s`.
 */
module Text {

  // ---------------------------------------------------------------------------
  // Digits and integer rendering
  // ---------------------------------------------------------------------------

  /** The regular-expression class `\d`: ASCII decimal digits only. */
  predicate IsDigit(c: char) {
    '0' <= c <= '9'
  }

  function DigitValue(c: char): (v: nat)
    requires IsDigit(c)
    ensures v < 10
  {
    (c as int) - ('0' as int)
  }

  function DigitChar(v: nat): (c: char)
    requires v < 10
    ensures IsDigit(c) && DigitValue(c) == v
  {
    (('0' as int) + v) as char
  }

  predicate AllDigits(s: string) {
    forall i :: 0 <= i < |s| ==> IsDigit(s[i])
  }

  /** The value `parseInt` gives a string of decimal digits; the empty string reads as 0. */
  function DigitsValue(s: string): nat
    requires AllDigits(s)
  {
    if |s| == 0 then 0 else DigitsValue(s[..|s| - 1]) * 10 + DigitValue(s[|s| - 1])
  }

  /** `n.toString()` for a non-negative integer: its decimal digits, most significant first. */
  function NatToString(n: nat): (r: string)
    ensures |r| > 0 && AllDigits(r) && DigitsValue(r) == n
  {
    if n < 10 then
      [DigitChar(n)]
    else
      var prefix := NatToString(n / 10);
      var r := prefix + [DigitChar(n % 10)];
      assert r[..|r| - 1] == prefix;
      r
  }

  /** `i.toString()` for any integer: a minus sign before the digits of a negative one. */
  function IntToString(i: int): string {
    if i < 0 then "-" + NatToString(-i) else NatToString(i)
  }

  /** JavaScript's `a % b`: the remainder truncates toward zero, so it takes the sign of `a`. */
  function JsRem(a: int, b: int): (r: int)
    requires b != 0
    ensures a >= 0 ==> 0 <= r < (if b > 0 then b else -b)
    ensures a < 0 ==> -(if b > 0 then b else -b) < r <= 0
    ensures a >= 0 && b > 0 ==> r == a % b
  {
    var m := if b > 0 then b else -b;
    if a >= 0 then a % m else -((-a) % m)
  }

  /** Length of the longest prefix of `s` made of digits. */
  function DigitRun(s: string): (n: nat)
    ensures n <= |s| && AllDigits(s[..n])
    ensures n < |s| ==> !IsDigit(s[n])
  {
    if |s| == 0 || !IsDigit(s[0]) then 0
    else
      var k := DigitRun(s[1..]);
      assert s[..1 + k] == [s[0]] + s[1..][..k];
      1 + k
  }

  lemma {:induction false} DigitRunOfDigits(a: string, b: string)
    requires AllDigits(a)
    requires |b| == 0 || !IsDigit(b[0])
    ensures DigitRun(a + b) == |a|
    decreases |a|
  {
    if |a| > 0 {
      assert (a + b)[1..] == a[1..] + b;
      DigitRunOfDigits(a[1..], b);
    } else {
      assert a + b == b;
    }
  }

  // ---------------------------------------------------------------------------
  // White space
  // ---------------------------------------------------------------------------

  /** The regular-expression class `\s`: ECMAScript white space and line terminators. */
  predicate IsSpace(c: char) {
    || c == ' ' || c == '\t' || c == '\n' || c == '\r' || c == '\U{B}' || c == '\U{C}'
    || c == '\U{A0}' || c == '\U{1680}' || ('\U{2000}' <= c <= '\U{200A}')
    || c == '\U{2028}' || c == '\U{2029}' || c == '\U{202F}' || c == '\U{205F}'
    || c == '\U{3000}' || c == '\U{FEFF}'
  }

  predicate AllSpaces(s: string) {
    forall i :: 0 <= i < |s| ==> IsSpace(s[i])
  }

  /** Length of the longest prefix of `s` made of white space. */
  function SpaceRun(s: string): (n: nat)
    ensures n <= |s| && AllSpaces(s[..n])
    ensures n < |s| ==> !IsSpace(s[n])
  {
    if |s| == 0 || !IsSpace(s[0]) then 0
    else
      var k := SpaceRun(s[1..]);
      assert s[..1 + k] == [s[0]] + s[1..][..k];
      1 + k
  }

  lemma {:induction false} SpaceRunOfSpaces(a: string, b: string)
    requires AllSpaces(a)
    requires |b| == 0 || !IsSpace(b[0])
    ensures SpaceRun(a + b) == |a|
    decreases |a|
  {
    if |a| > 0 {
      assert (a + b)[1..] == a[1..] + b;
      SpaceRunOfSpaces(a[1..], b);
    } else {
      assert a + b == b;
    }
  }

  // ---------------------------------------------------------------------------
  // Case, prefixes, substrings
  // ---------------------------------------------------------------------------

  function LowerChar(c: char): char {
    if 'A' <= c <= 'Z' then ((c as int) + 32) as char else c
  }

  /** `toLowerCase`, restricted to the ASCII letters. */
  function Lower(s: string): (r: string)
    ensures |r| == |s|
    ensures forall i :: 0 <= i < |s| ==> r[i] == LowerChar(s[i])
  {
    if |s| == 0 then [] else [LowerChar(s[0])] + Lower(s[1..])
  }

  /** `s.startsWith(prefix)`. */
  predicate StartsWith(s: string, prefix: string) {
    |prefix| <= |s| && s[..|prefix|] == prefix
  }

  /** `sub` occurs in `s` at index `i`. */
  predicate OccursAt(s: string, sub: string, i: nat) {
    i + |sub| <= |s| && s[i..i + |sub|] == sub
  }

  /** `s.includes(sub)`, as a scan from the left. */
  predicate Contains(s: string, sub: string)
    decreases |s|
  {
    StartsWith(s, sub) || (|s| > 0 && Contains(s[1..], sub))
  }

  /** The scan finds `sub` exactly when it occurs somewhere in `s`. */
  lemma {:induction false} ContainsIffOccurs(s: string, sub: string)
    ensures Contains(s, sub) <==> exists i: nat :: OccursAt(s, sub, i)
    decreases |s|
  {
    if StartsWith(s, sub) {
      assert OccursAt(s, sub, 0);
    } else if |s| == 0 {
      assert |sub| > 0;
    } else {
      ContainsIffOccurs(s[1..], sub);
      if Contains(s[1..], sub) {
        var i: nat :| OccursAt(s[1..], sub, i);
        assert s[i + 1..i + 1 + |sub|] == s[1..][i..i + |sub|];
        assert OccursAt(s, sub, i + 1);
      }
      if exists i: nat :: OccursAt(s, sub, i) {
        var i: nat :| OccursAt(s, sub, i);
        assert i > 0;
        assert s[1..][i - 1..i - 1 + |sub|] == s[i..i + |sub|];
        assert OccursAt(s[1..], sub, i - 1);
      }
    }
  }

  // ---------------------------------------------------------------------------
  // Splitting and padding
  // ---------------------------------------------------------------------------

  predicate Lacks(s: string, c: char) {
    forall i :: 0 <= i < |s| ==> s[i] != c
  }

  /** `s.split(sep)` for a non-empty separator: the pieces between non-overlapping occurrences, left to right. */
  function Split(s: string, sep: string): (parts: seq<string>)
    requires |sep| > 0
    ensures |parts| >= 1
    decreases |s|
  {
    if |s| == 0 then [""]
    else if StartsWith(s, sep) then [""] + Split(s[|sep|..], sep)
    else
      var rest := Split(s[1..], sep);
      [[s[0]] + rest[0]] + rest[1..]
  }

  /** A string in which the separator cannot start is not split. */
  lemma {:induction false} SplitWithout(a: string, sep: string)
    requires |sep| > 0 && Lacks(a, sep[0])
    ensures Split(a, sep) == [a]
    decreases |a|
  {
    if |a| > 0 {
      SplitWithout(a[1..], sep);
      assert [a[0]] + a[1..] == a;
    }
  }

  /** The first piece ends at the first separator when it cannot start earlier. */
  lemma {:induction false} SplitAt(a: string, sep: string, b: string)
    requires |sep| > 0 && Lacks(a, sep[0])
    ensures Split(a + sep + b, sep) == [a] + Split(b, sep)
    decreases |a|
  {
    var s := a + sep + b;
    if |a| == 0 {
      assert s == sep + b;
      assert s[..|sep|] == sep;
      assert s[|sep|..] == b;
    } else {
      assert s[0] == a[0];
      assert !StartsWith(s, sep);
      assert s[1..] == a[1..] + sep + b;
      SplitAt(a[1..], sep, b);
      assert [a[0]] + a[1..] == a;
    }
  }

  /** Concatenation regroups to the right. */
  lemma Regroup<T>(x: seq<T>, y: seq<T>, z: seq<T>)
    ensures x + y + z == x + (y + z)
  {
  }

  /** Two fields joined by a separator that neither can start split back into those fields. */
  lemma SplitTwo(a: string, b: string, sep: string)
    requires |sep| > 0 && Lacks(a, sep[0]) && Lacks(b, sep[0])
    ensures Split(a + sep + b, sep) == [a, b]
  {
    SplitWithout(b, sep);
    SplitAt(a, sep, b);
  }

  lemma SplitThree(a: string, b: string, c: string, sep: string)
    requires |sep| > 0 && Lacks(a, sep[0]) && Lacks(b, sep[0]) && Lacks(c, sep[0])
    ensures Split(a + sep + b + sep + c, sep) == [a, b, c]
  {
    SplitTwo(b, c, sep);
    SplitAt(a, sep, b + sep + c);
    var p := a + sep;
    Regroup(p, b, sep);
    Regroup(p, b + sep, c);
  }

  lemma SplitFour(a: string, b: string, c: string, d: string, sep: string)
    requires |sep| > 0 && Lacks(a, sep[0]) && Lacks(b, sep[0]) && Lacks(c, sep[0]) && Lacks(d, sep[0])
    ensures Split(a + sep + b + sep + c + sep + d, sep) == [a, b, c, d]
  {
    SplitThree(b, c, d, sep);
    SplitAt(a, sep, b + sep + c + sep + d);
    var p := a + sep;
    Regroup(p, b, sep);
    Regroup(p, b + sep, c);
    Regroup(p, b + sep + c, sep);
    Regroup(p, b + sep + c + sep, d);
  }

  /** Five fields joined by a separator that none of them can start split back into those fields. */
  lemma SplitFive(a: string, b: string, c: string, d: string, e: string, sep: string)
    requires |sep| > 0
    requires Lacks(a, sep[0]) && Lacks(b, sep[0]) && Lacks(c, sep[0]) && Lacks(d, sep[0]) && Lacks(e, sep[0])
    ensures Split(a + sep + b + sep + c + sep + d + sep + e, sep) == [a, b, c, d, e]
  {
    SplitFour(b, c, d, e, sep);
    SplitAt(a, sep, b + sep + c + sep + d + sep + e);
    var p := a + sep;
    Regroup(p, b, sep);
    Regroup(p, b + sep, c);
    Regroup(p, b + sep + c, sep);
    Regroup(p, b + sep + c + sep, d);
    Regroup(p, b + sep + c + sep + d, sep);
    Regroup(p, b + sep + c + sep + d + sep, e);
  }

  /** `s.padStart(2, '0')`. */
  function PadTwo(s: string): (r: string)
    ensures |r| == (if |s| < 2 then 2 else |s|)
    ensures r[|r| - |s|..] == s
    ensures forall i :: 0 <= i < |r| - |s| ==> r[i] == '0'
  {
    if |s| == 0 then "00" else if |s| == 1 then "0" + s else s
  }

  /** Any number, rendered and padded to at least two characters, reads back as itself. */
  lemma PadTwoReadsBack(n: nat)
    ensures |PadTwo(NatToString(n))| >= 2
    ensures AllDigits(PadTwo(NatToString(n)))
    ensures DigitsValue(PadTwo(NatToString(n))) == n
  {
    if n < 10 {
      PadTwoOfSmall(n);
    }
  }

  /** Two fields joined by `:`, the second two characters long, are found again around the colon. */
  lemma JoinedFields(a: string, b: string)
    requires |b| == 2
    ensures var c := a + ":" + b;
            c[|c| - 3] == ':' && c[..|c| - 3] == a && c[|c| - 2..] == b
  {
  }

  /** A number below 100, rendered and padded to two characters, reads back as itself. */
  lemma PadTwoOfSmall(n: nat)
    requires n < 100
    ensures |PadTwo(NatToString(n))| == 2
    ensures AllDigits(PadTwo(NatToString(n)))
    ensures DigitsValue(PadTwo(NatToString(n))) == n
  {
    var t := NatToString(n);
    if n < 10 {
      assert t == [DigitChar(n)];
      var p := "0" + t;
      assert PadTwo(t) == p;
      assert p[..1] == "0";
      assert DigitsValue(p[..1]) == 0 by {
        assert p[..1][..0] == [];
      }
    } else {
      assert |NatToString(n / 10)| == 1;
      assert |t| == 2;
    }
  }
}

=== FILE: types.dfy ===
/** The records of `types.ts`: vehicle laws, run status and a saved simulation. */
module Types {
  import opened Wrappers
  import opened Text

  /** The four Braitenberg vehicles; the enum's string value is `Label`. */
  datatype VehicleType = Fear | Aggression | Love | Explorer

  /** The code before the colon in the enum value, after Braitenberg's numbering. */
  function Code(t: VehicleType): string {
    match t
    case Fear => "2a"
    case Aggression => "2b"
    case Love => "3a"
    case Explorer => "3b"
  }

  /** The Portuguese behaviour name after the colon in the enum value. */
  function Name(t: VehicleType): string {
    match t
    case Fear => "Medo"
    case Aggression => "Agressão"
    case Love => "Amor"
    case Explorer => "Explorador"
  }

  /** The enum's string value, e.g. `'3a: Amor'`. */
  function Label(t: VehicleType): string {
    Code(t) + ": " + Name(t)
  }

  /** `label.split(': ')` yields the code and the name, so `split(': ')[1]` is the name. */
  lemma LabelSplits(t: VehicleType)
    ensures Split(Label(t), ": ") == [Code(t), Name(t)]
  {
    SplitAt(Code(t), ": ", Name(t));
    SplitWithout(Name(t), ": ");
  }

  /** Distinct vehicles have distinct enum values, so values can key a count table. */
  lemma LabelInjective(a: VehicleType, b: VehicleType)
    ensures Label(a) == Label(b) ==> a == b
  {
    if Label(a) == Label(b) {
      LabelSplits(a);
      LabelSplits(b);
    }
  }

  /** `t.split(': ')[1]`: the behaviour name, as used in default run names and the analysis page. */
  function AfterColon(t: VehicleType): (r: string)
    ensures r == Name(t)
  {
    LabelSplits(t);
    Split(Label(t), ": ")[1]
  }

  datatype SimulationStatus = Running | Paused | Completed | Stopped

  datatype Metrics = Metrics(distance: string, avgSpeed: string, sensorL: real, sensorR: real)

  /** A run as stored in the history list. */
  datatype Simulation = Simulation(
    id: string,
    userId: Option<string>,
    name: string,
    vehicleType: VehicleType,
    status: SimulationStatus,
    timestamp: string,
    duration: string,
    speed: string,
    metrics: Metrics)
}

=== FILE: wrappers.dfy ===
/** Optional values: the model's stand-in for JavaScript's `undefined` / `null`. */
module Wrappers {

  datatype Option<+T> = None | Some(value: T)
}
